=== FILE: README.md ===
# Path-route subgraph materialisation, modelled in Dafny

This project models `PathRoute#subgraph` from Pacer, a graph traversal
library. The method copies every vertex and edge met along a route's paths
into a target graph. It runs in two phases:

1. **Phase 1 (optimistic scan).** For each path, every vertex is cloned into
   the target. Then every edge of that path is cloned with
   `ignore_missing_vertices: true`. An edge whose endpoints are not yet in
   the target is recorded in an insertion-ordered set of missing edges.
2. **Phase 2 (deferred retry).** This runs only when that set is non-empty.
   Each missing edge is cloned once more, and the caller's
   `ignore_missing_vertices` / `show_missing_vertices` flags are forwarded
   unchanged. Following the help text (lines 14-19), the two flags act
   independently: `show_missing_vertices` complains about an edge that
   still lacks an endpoint, and unless `ignore_missing_vertices` squelches
   it, the first such edge raises `Pacer::ElementNotFound`. Nothing cloned
   before that point is rolled back.

The call is preceded by three steps:

- a guard that refuses a target which is the source graph itself;
- a fresh target (`Pacer.tg`) when none is given;
- `vertex_name ||=`, which inherits the source's vertex name only when the
  target has none.

The project also models the per-path helpers of the same module:
`transpose`, `compact_paths`, `heads`, `tails`, `pairs`, `len` and `hashify`.

Layout:

| file | module | contents |
|---|---|---|
| `elements.dfy` | `Elements` | vertices, edges, path elements, paths, graphs (a handle, a vertex name, a vertex-Id set, an edge map keyed by Id) |
| `cloner.dfy` | `Cloner` | `clone_into` for one vertex or one edge, stated as a contract, with the two missing-vertex flags |
| `subgraph.dfy` | `SubgraphCore` | the guard, target preparation, Phase 1, Phase 2, and `subgraph` itself |
| `subgraph_properties.dfy` | `SubgraphProperties` | properties of the whole call and of each phase, plus concrete scenarios |
| `path_helpers.dfy` | `PathHelpers` | `transpose`, `heads`, `tails`, `pairs`, `len`, `compact_paths` |
| `path_trees.dfy` | `PathTrees` | `hashify` |

Graphs are immutable values, and each operation returns the new graph.
Raising an exception is modelled as a result variant:

- `SelfReference` for the guard;
- `ElementNotFound(target, edge, missingIds, reported)` for the failure when
  missing vertices are not ignored, which carries the target as the failure
  left it;
- `Completed(target, reported)` otherwise.

In both, `reported` lists the edges complained about under
`show_missing_vertices`.

Some small functions stand for single Ruby operations and have no row of
their own; the rows of the members that use them state their effect:
`Elements.EmptyGraph` (`Pacer.tg`, in `SubgraphCore.Prepare`),
`SubgraphCore.CallerPolicy` (the flags forwarded at lines 65-67, in
`SubgraphCore.Phase2` and `SubgraphProperties.CreateVerticesHasNoEffect`),
`PathTrees.Step` (the block of the reduce, lines 118-122, in
`PathTrees.HashTree`, `PathTrees.RootKeys` and
`PathTrees.FirstEdgeNestsRest`), and `PathHelpers.At`, `PathHelpers.First`
and `PathHelpers.Last` (`path[i]`, `first`, `last`, in `PathHelpers.Heads`,
`PathHelpers.Tails`, `PathHelpers.Pairs` and `PathHelpers.AtIsModular`).

Some proof helpers have no row either. The ones about a completed run are
`SubgraphProperties.CompletedRunSettles`,
`SubgraphProperties.CompletedRunKeys` and
`SubgraphProperties.OnlyPlacedKeysAdded`; they are steps of the proofs of
`SubgraphProperties.RerunCompletes` and `SubgraphProperties.RerunAddsNoEdge`,
whose rows state what they establish. Likewise
`SubgraphProperties.Phase2AbortedAt`, `SubgraphProperties.Phase2AbortedKeeps`
and `SubgraphProperties.Phase2AbortedEdges` each prove part of
`SubgraphProperties.Phase2Aborted`. `SubgraphProperties.AbortedEdgesBefore`
is a step of `SubgraphProperties.Phase2StopsAt`, and
`SubgraphProperties.FailureIsAbort` one of
`SubgraphProperties.FailureStopsRetry`. `SubgraphProperties.FirstPathScan`
and `SubgraphProperties.SecondPathScan` compute the scenario paths one at a
time for `SubgraphProperties.ScenarioPhase1` and
`SubgraphProperties.MinimalCase`. The sequence facts `Elements.IndexOf`,
`Elements.Subsequence`, `Elements.SubsequenceStep`,
`Elements.SubsequenceAppend` and `Elements.SuffixSplit` serve the order
lemmas `SubgraphProperties.Phase1InOrder` and its companions and the abort
lemmas above.

## Model

| member | source | states |
|---|---|---|
| Elements.VerticesOf | lib/pacer/core/graph/path_route.rb:54 | the vertices selected from a path are exactly the path's vertex elements |
| Elements.EdgesOf | lib/pacer/core/graph/path_route.rb:57 | the edges selected from a path are exactly the path's edge elements |
| Elements.VerticesOfAppend | lib/pacer/core/graph/path_route.rb:54 | selecting vertices keeps path order: the selection of a concatenation is the concatenation of the selections |
| Elements.EdgesOfAppend | lib/pacer/core/graph/path_route.rb:57 | selecting edges keeps path order: the selection of a concatenation is the concatenation of the selections |
| Elements.VertexIdsOfPath | lib/pacer/core/graph/path_route.rb:54-56 | the Ids cloned from a path's vertices are exactly the Ids of vertices occurring in it |
| Elements.SplitPaths | lib/pacer/core/graph/path_route.rb:53 | walking the paths one at a time visits every vertex and edge of the input: membership in all paths is membership in the first or in the rest |
| Cloner.CloneVertex | lib/pacer/core/graph/path_route.rb:55 | cloning a vertex adds its Id and changes no edge, handle or vertex name; a well-formed graph stays well-formed |
| Cloner.MissingEndpoints | lib/pacer/core/graph/path_route.rb:16-17 | the Ids an ElementNotFound names are exactly the edge's endpoints absent from the target, and the set is empty exactly when both endpoints are present |
| Cloner.CloneEdge | lib/pacer/core/graph/path_route.rb:14-19 | an edge is placed, keyed by its Id with its label and endpoints, exactly when both endpoints are in the target; otherwise it carries its absent endpoint Ids, is complained about exactly when show is set, and raises ElementNotFound exactly when ignore is not set |
| SubgraphCore.AddMissing | lib/pacer/core/graph/path_route.rb:52 | adding an edge to the missing set keeps it duplicate-free, keeps its earlier order, and changes nothing when the edge is already there |
| SubgraphCore.CloneVertices | lib/pacer/core/graph/path_route.rb:54-56 | cloning a path's vertices adds exactly their Ids and touches no edge |
| SubgraphCore.TryEdges | lib/pacer/core/graph/path_route.rb:57-61 | with endpoints present an edge is placed with its own record, otherwise it is appended to the missing set; vertices are never added; the missing set stays duplicate-free and only grows |
| SubgraphCore.ScanPath | lib/pacer/core/graph/path_route.rb:53-61 | after one path, the target holds the path's vertex Ids, the path's edges whose endpoints are present, and the missing set holds exactly the path's edges whose endpoints are still absent |
| SubgraphCore.Phase1 | lib/pacer/core/graph/path_route.rb:52-62 | the missing set stays duplicate-free and only grows; the target keeps its handle and vertex name |
| Elements.EdgesOfPaths | lib/pacer/core/graph/path_route.rb:53-57 | the edges of all paths taken path after path contain exactly the edges occurring in the input |
| SubgraphProperties.TryEdgesInOrder | lib/pacer/core/graph/path_route.rb:52-61 | the edges one run of the edge loop adds to the missing set are a subsequence of the path's edges: the Set keeps insertion order |
| SubgraphProperties.ScanPathInOrder | lib/pacer/core/graph/path_route.rb:52-61 | the edges one path defers join the missing set in the order the path lists them |
| SubgraphProperties.Phase1InOrder | lib/pacer/core/graph/path_route.rb:52-62 | the missing set after Phase 1 lists the deferred edges in input order, path after path and in path order within a path, which is the order Phase 2 retries them in |
| SubgraphCore.Phase1Facts | lib/pacer/core/graph/path_route.rb:52-62 | Phase 1 clones every vertex of every path and no other vertex, keeps every earlier edge, places each path edge or defers it, and defers only path edges; a path edge whose endpoints end up present is stored or deferred; well-formedness is kept |
| SubgraphCore.Phase2 | lib/pacer/core/graph/path_route.rb:63-69 | the retry adds no vertex and drops no edge; a finished retry tried every missing edge in order; it aborts exactly when ignore is not set and some missing edge still lacks an endpoint |
| SubgraphCore.Prepare | lib/pacer/core/graph/path_route.rb:50-51 | with no target, an empty graph with the fresh handle and the source's vertex name; with a target, the target itself, with the source's vertex name only when it had none |
| SubgraphCore.Materialize | lib/pacer/core/graph/path_route.rb:52-70 | the result keeps the prepared target's identity and vertex name, holds exactly its vertices plus the paths' vertices, drops no edge, and stays well-formed |
| SubgraphCore.Subgraph | lib/pacer/core/graph/path_route.rb:48-71 | for a route on a source graph, the call refuses exactly a target that is that graph; otherwise the result is the given or fresh target, with the vertex-name rule applied, holding the target's and the paths' vertices |
| SubgraphProperties.Phase2Keeps | lib/pacer/core/graph/path_route.rb:64-68 | a retry never overwrites an edge record unless another missing edge carries the same Id |
| SubgraphProperties.Phase2Finished | lib/pacer/core/graph/path_route.rb:63-69 | when the retry runs to the end, the new edge Ids are exactly those of missing edges whose endpoints are present; each such edge is stored when no other missing edge shares its Id; the edges complained about are exactly the missing edges that still lack an endpoint, and only under show |
| SubgraphProperties.Phase2Aborted | lib/pacer/core/graph/path_route.rb:63-69 | when the retry aborts, it stopped at the first missing edge that lacks an endpoint; every edge retried before it was placed; the raise ends the retry, so the target holds exactly its earlier edges plus those retried before the failing one; the failure names that edge and its absent endpoint Ids, and only that edge is complained about, exactly under show |
| SubgraphProperties.Phase2StopsAt | lib/pacer/core/graph/path_route.rb:63-69 | an aborted retry, read against the missing set: the failing edge sits at position k, its first occurrence there; it lacks an endpoint while every missing edge before k had both; the target holds exactly its earlier edges plus the Ids of the missing edges before k, so none after k is cloned |
| SubgraphProperties.NoDupCountsOnce | lib/pacer/core/graph/path_route.rb:52 | an element of a duplicate-free sequence occurs in it exactly once |
| SubgraphProperties.RetriedExactlyOnce | lib/pacer/core/graph/path_route.rb:63-69 | each missing edge is retried exactly once in Phase 2 |
| SubgraphProperties.SamePathEdgeNeverDeferred | lib/pacer/core/graph/path_route.rb:53-61 | vertices before edges: an edge whose two endpoints occur as vertices in the same path is placed by Phase 1 and never added to the missing set |
| SubgraphProperties.TryEdgesAllPresent | lib/pacer/core/graph/path_route.rb:57-61 | edges whose endpoints are all present add nothing to the missing set |
| SubgraphProperties.SelfContainedScanAddsNothing | lib/pacer/core/graph/path_route.rb:52-62 | when every path contains the endpoints of its own edges, Phase 1 defers nothing |
| SubgraphProperties.Phase2SkippedWhenNothingMissing | lib/pacer/core/graph/path_route.rb:63 | whenever Phase 1 deferred nothing, Phase 2 does not run and the call completes with the Phase 1 target and no complaint, whatever the policy |
| SubgraphProperties.SelfContainedPathsSkipPhase2 | lib/pacer/core/graph/path_route.rb:52-63 | when every path contains the endpoints of its own edges, nothing is deferred and Phase 2 does not run |
| SubgraphProperties.MaterializeFacts | lib/pacer/core/graph/path_route.rb:52-70 | a completed call holds exactly the target's edges plus the path edges whose endpoints are present, each stored when Ids are unique; it complains about exactly the path edges lacking an endpoint, under show; ElementNotFound occurs exactly when ignore is not set and some path edge lacks an endpoint, names such an edge and all its absent endpoints, complains about that edge alone under show, and keeps all of Phase 1's work |
| SubgraphProperties.CompletedEdges | lib/pacer/core/graph/path_route.rb:52-70 | a completed call adds exactly the Ids of path edges whose endpoints are present, and every such Id |
| SubgraphProperties.CompletedStored | lib/pacer/core/graph/path_route.rb:57-68 | with unique edge Ids, a completed call stores every path edge whose endpoints are present with its own label and endpoints |
| SubgraphProperties.CompletedReports | lib/pacer/core/graph/path_route.rb:63-69 | a completed call complains about exactly the path edges still lacking an endpoint, and only under show |
| SubgraphProperties.FailsExactlyWhenStrict | lib/pacer/core/graph/path_route.rb:63-69 | ElementNotFound occurs exactly when ignore is not set and some path edge lacks an endpoint, whether or not show is set |
| SubgraphProperties.FailureStopsRetry | lib/pacer/core/graph/path_route.rb:63-69 | the raise leaves the retry: the failing edge is in Phase 1's missing set, every missing edge before it had both endpoints, and a failure holds exactly Phase 1's edges plus the Ids of those earlier edges, so no later missing edge is cloned |
| SubgraphProperties.FailureHoldsPathEdges | lib/pacer/core/graph/path_route.rb:52-69 | every edge a failure holds was in the target before the call or is a path edge whose two endpoints the failure holds |
| SubgraphProperties.FailureNamesPathEdge | lib/pacer/core/graph/path_route.rb:63-69 | a failure names a path edge and exactly its absent endpoint Ids, complains about that edge alone exactly under show, and every edge Phase 1 placed stays |
| SubgraphProperties.SelfReferenceGuard | lib/pacer/core/graph/path_route.rb:49 | a target that is the source graph is refused before anything is cloned |
| SubgraphProperties.FreshTarget | lib/pacer/core/graph/path_route.rb:50-51 | with no target, the result has the fresh identity and the source's vertex name and holds exactly the paths' vertices; every edge it holds, completed or failed, is a path edge with both endpoints present, and a completed result holds every such edge |
| SubgraphProperties.ExistingVertexNameKept | lib/pacer/core/graph/path_route.rb:51 | a target that already has a vertex name keeps it and keeps its identity |
| SubgraphProperties.Completeness | lib/pacer/core/graph/path_route.rb:48-71 | an edge of the paths whose endpoints occur as vertices anywhere in the input, or were already in the target, is in a completed result, with its own record when Ids are unique, and is never the edge a failure names |
| SubgraphProperties.IgnorePolicyNeverFails | lib/pacer/core/graph/path_route.rb:18 | under ignore the call never raises ElementNotFound, with or without show |
| SubgraphProperties.StrictPolicyFailsIff | lib/pacer/core/graph/path_route.rb:63-69 | unless ignore is set, the call fails exactly when some path edge lacks an endpoint; the failure names such an edge and exactly its absent endpoints, complains about it alone under show, and everything Phase 1 cloned stays |
| SubgraphProperties.TargetStaysWellFormed | lib/pacer/core/graph/path_route.rb:48-71 | a well-formed target stays well-formed: every edge joins two vertices |
| SubgraphProperties.CreateVerticesHasNoEffect | lib/pacer/core/graph/path_route.rb:64-67 | create_vertices is never forwarded, so flipping it changes nothing |
| SubgraphProperties.MaterializeIdempotent | lib/pacer/core/graph/path_route.rb:52-70 | running both phases again over a completed result completes and adds no vertex or edge Id |
| SubgraphProperties.RerunCompletes | lib/pacer/core/graph/path_route.rb:63-69 | a second run over a completed result never fails |
| SubgraphProperties.RerunAddsNoEdge | lib/pacer/core/graph/path_route.rb:57-68 | a second run over a completed result adds no edge Id |
| SubgraphProperties.Idempotent | lib/pacer/core/graph/path_route.rb:48-71 | calling subgraph again, with the completed result as target, completes and adds no vertex or edge Id |
| SubgraphProperties.PathParts | lib/pacer/core/graph/path_route.rb:54-57 | the vertex and edge selections of the two scenario paths |
| SubgraphProperties.ScenarioPhase1 | lib/pacer/core/graph/path_route.rb:52-62 | for the paths `v1 -e1-> v2` and `e2` (to vertex 4), Phase 1 places v1, v2 and e1 and defers only e2 |
| SubgraphProperties.MinimalCase | lib/pacer/core/graph/path_route.rb:48-71 | the single path `v1 -e1-> v2` into a fresh target yields exactly v1, v2 and e1 under every policy |
| SubgraphProperties.StrictScenario | lib/pacer/core/graph/path_route.rb:63-69 | without ignore the scenario raises ElementNotFound naming e2 and vertex 4, complains about e2 exactly under show, and v1, v2 and e1 stay in the target |
| SubgraphProperties.IgnoreScenario | lib/pacer/core/graph/path_route.rb:63-69 | under ignore the scenario completes with v1, v2 and e1 and without e2, complaining about e2 exactly under show |
| PathHelpers.Transpose | lib/pacer/core/graph/path_route.rb:44-46 | a rectangular list of paths is transposed, with element (j, i) equal to input element (i, j); rows of unequal length fail |
| PathHelpers.TransposeTwice | lib/pacer/core/graph/path_route.rb:44-46 | transposing a non-empty rectangular input twice gives it back |
| PathHelpers.AtIsModular | lib/pacer/core/graph/path_route.rb:105 | Ruby indexing of a path: an index in range, negative or not, picks the element at the index modulo the length; any other index gives nil |
| PathHelpers.Heads | lib/pacer/core/graph/path_route.rb:91-95 | one element per path: its element at index 0, or nil for an empty path |
| PathHelpers.Tails | lib/pacer/core/graph/path_route.rb:97-101 | one element per path: its element at index -1, or nil for an empty path |
| PathHelpers.Pairs | lib/pacer/core/graph/path_route.rb:103-107 | one two-element path per input path |
| PathHelpers.PairsDefaultIsHeadAndTail | lib/pacer/core/graph/path_route.rb:103 | with the default indices 0 and -1, each pair is the path's head followed by its tail |
| PathHelpers.PairsPickModular | lib/pacer/core/graph/path_route.rb:103-107 | each pair holds the path's elements at the two indices, taken modulo the length when in range, and nil otherwise |
| PathHelpers.Len | lib/pacer/core/graph/path_route.rb:109-113 | keeps exactly the paths whose length the matcher accepts, and no others |
| PathHelpers.LenCounts | lib/pacer/core/graph/path_route.rb:109-113 | every matching path is kept as often as it occurs, and every other path is dropped |
| PathHelpers.LenAppend | lib/pacer/core/graph/path_route.rb:109-113 | the filter keeps order: filtering a concatenation is concatenating the filtered parts |
| PathHelpers.LenIdempotent | lib/pacer/core/graph/path_route.rb:109-113 | filtering twice by the same length changes nothing |
| PathHelpers.Compact | lib/pacer/core/graph/path_route.rb:87 | the result has no nil and keeps every other element as often as it occurs; its length is the input length minus the number of nils |
| PathHelpers.CompactPaths | lib/pacer/core/graph/path_route.rb:85-89 | one compacted path per path: no nils, every other element kept |
| PathHelpers.CompactAppend | lib/pacer/core/graph/path_route.rb:87 | compacting keeps order: compacting a concatenation is concatenating the compacted parts |
| PathHelpers.CompactWithoutNils | lib/pacer/core/graph/path_route.rb:87 | a path without nils is left unchanged |
| PathHelpers.CompactIdempotent | lib/pacer/core/graph/path_route.rb:85-89 | compacting twice is compacting once |
| PathTrees.HashTree | lib/pacer/core/graph/path_route.rb:115-125 | a path has a tree exactly when every element is a vertex or an edge |
| PathTrees.Hashify | lib/pacer/core/graph/path_route.rb:115-125 | reducing the reversed path from the last element to the first gives the path's tree, defined from the front |
| PathTrees.FirstEdge | lib/pacer/core/graph/path_route.rb:118-121 | the position of the first edge: no edge comes before it, and it is an edge when inside the path |
| PathTrees.RootKeys | lib/pacer/core/graph/path_route.rb:117-122 | the tree's top level holds exactly the property keys of the vertices before the first edge, plus that edge's label |
| PathTrees.FirstEdgeNestsRest | lib/pacer/core/graph/path_route.rb:117-122 | the first edge's label maps to a one-element list holding the tree of everything after it, unless an earlier vertex has a property of that name |

## Left out

- `help` (lines 3-42) prints documentation only.
- `payloads` (lines 73-83) depends on payload wrappers that are not part of
  this model.
- `configure_iterator` (lines 128-136) wires a Java pipe. It is plumbing
  with no logic of its own.
- `bulk_job` batching and concurrency are not modelled. Paths are processed
  one at a time, in order, which is one of the orders a batch job can take.
- The internals of `clone_into` are not part of this model. It is stated as
  a contract in `Cloner.CloneEdge`:
  - vertices are upserted by Id;
  - an edge is placed, overwriting any record with its Id, exactly when both
    endpoint Ids are in the target.
- Cloner.CloneEdge: the effect of the two flags follows the help text (lines
  14-19), which describes them independently: `ignore_missing_vertices`
  squelches the exception, and `show_missing_vertices` complains. Another
  reading is possible, in which `show_missing_vertices` alone also turns the
  exception into a skip. The code of `clone_into` that would settle this is
  not part of this model, and that reading is not modelled.
- The complaint is modelled as the list `reported`. The text printed and
  where it goes are not modelled.
- Property values are not stored in graphs, so merge and overwrite of
  properties by `clone_into` are not modelled. Vertex properties appear only
  in `hashify`.
- `Pacer.tg` is modelled as an empty graph whose identity is the parameter
  `freshHandle`, with no vertex name.
- Graph equality in the guard (`target_graph == graph`) is modelled as
  equality of handles.
- SubgraphCore.Subgraph: the route is assumed to have a source graph, so
  `source` is a `Graph` and not an optional one. A route without a graph is
  not modelled. For such a route, line 49 compares `nil == nil` and raises
  the self-reference error even when no target is given. With a target,
  line 51 would raise on `nil.vertex_name` when the target has no vertex
  name.
- `SubgraphCore.Phase2` retries the edge values recorded in Phase 1.
  Line 64 reads them again through the source graph, which the call never
  writes, so they carry the label and endpoints Phase 1 saw.
- `SubgraphProperties.Completeness` and `SubgraphProperties.MaterializeFacts`
  guarantee that each edge keeps its own label and endpoints only under
  `UniqueEdgeIds`, meaning one Id names one edge throughout the input. In a
  real source graph this always holds. Without it, a later edge with the same
  Id overwrites the record.
- `PathHelpers.Heads`, `PathHelpers.Tails` and `PathHelpers.Pairs` ignore
  their element-type and route-name arguments, which only label the
  resulting route.
- `PathHelpers.Len` covers an Integer argument and a finite integer Range.
  Any other object's `===` is not modelled.
- `PathTrees.HashTree`: an element that is neither a vertex nor an edge has
  no `element_type`, and Ruby raises `NoMethodError`. The model returns
  `None` for such a path.
- Property values are modelled as integers, because `hashify` only moves
  them around.

=== FILE: cloner.dfy ===
/**
  The `clone_into` primitives that `subgraph` drives, stated as a contract:
  cloning a vertex always succeeds and is keyed by its Id; cloning an edge
  succeeds exactly when both endpoint Ids are already in the target, and
  otherwise the caller's missing-vertex policy decides the outcome.
 */
module Cloner {
  import opened Elements

  /** The two flags `clone_into` reads: `ignore_missing_vertices` and
      `show_missing_vertices`. */
  datatype Policy = Policy(ignoreMissing: bool, showMissing: bool)

  /** Result of one edge clone: placed into the target, or left out because
      an endpoint is absent. A left-out edge carries the absent endpoint Ids,
      whether it was complained about (`show_missing_vertices`), and whether
      it raised `Pacer::ElementNotFound` (unless `ignore_missing_vertices`
      squelched it). */
  datatype EdgeOutcome =
    | Placed(target: Graph)
    | Unplaced(missingIds: set<Id>, complained: bool, raised: bool)

  /** The endpoint Ids of `e` that `g` lacks. */
  function MissingEndpoints(g: Graph, e: Edge): (ids: set<Id>)
    ensures ids == {} <==> Present(g, e)
    ensures forall id :: id in ids <==> id !in g.vertices && (id == e.outId || id == e.inId)
  {
    var ids := {e.outId, e.inId} - g.vertices;
    assert e.outId !in g.vertices ==> e.outId in ids;
    assert e.inId !in g.vertices ==> e.inId in ids;
    ids
  }

  /** `vertex.clone_into target`: upsert by Id; never fails. */
  function CloneVertex(g: Graph, v: Vertex): (r: Graph)
    ensures r.vertices == g.vertices + {v.id}
    ensures r.edges == g.edges && r.handle == g.handle && r.vertexName == g.vertexName
    ensures WellFormed(g) ==> WellFormed(r)
  {
    g.(vertices := g.vertices + {v.id})
  }

  /** `edge.clone_into target, policy`. The two flags act independently, as
      the help text describes them: a missing endpoint raises unless ignored,
      and is complained about when shown. */
  function CloneEdge(g: Graph, e: Edge, policy: Policy): (r: EdgeOutcome)
    ensures r.Placed? <==> Present(g, e)
    ensures r.Placed? ==> r.target.vertices == g.vertices && r.target.edges == g.edges[e.id := Rec(e)]
    ensures r.Placed? ==> r.target.handle == g.handle && r.target.vertexName == g.vertexName
    ensures r.Placed? && WellFormed(g) ==> WellFormed(r.target)
    ensures r.Unplaced? ==> r.missingIds != {} && r.missingIds == MissingEndpoints(g, e)
    ensures r.Unplaced? ==> (r.complained <==> policy.showMissing) && (r.raised <==> !policy.ignoreMissing)
  {
    if Present(g, e) then Placed(g.(edges := g.edges[e.id := Rec(e)]))
    else Unplaced(MissingEndpoints(g, e), policy.showMissing, !policy.ignoreMissing)
  }
}

=== FILE: elements.dfy ===
/**
  The data model shared by the path-route operations: graph elements as they
  appear inside traversal paths, and the Id-keyed graph that `subgraph`
  populates.
 */
module Elements {

  type Id = nat

  datatype Option<T> = None | Some(value: T)

  /** A vertex as delivered by a traversal. Its properties are read only by
      `hashify`; the graphs below track Ids, not property values. */
  datatype Vertex = Vertex(id: Id, properties: map<string, int>)

  datatype Edge = Edge(id: Id, edgeLabel: string, outId: Id, inId: Id)

  /** One entry of a path: a vertex, an edge, any other value a traversal can
      emit, or Ruby's nil. */
  datatype Element =
    | VertexElem(vertex: Vertex)
    | EdgeElem(edge: Edge)
    | Other(value: int)
    | Nil

  type Path = seq<Element>

  /** What a graph stores for an edge: its label and its two endpoint Ids. */
  datatype EdgeRec = EdgeRec(edgeLabel: string, outId: Id, inId: Id)

  function Rec(e: Edge): EdgeRec {
    EdgeRec(e.edgeLabel, e.outId, e.inId)
  }

  /** A graph store. `handle` is the identity the self-reference guard
      compares; `vertexName` is the optional element-naming setting. */
  datatype Graph = Graph(handle: nat, vertexName: Option<string>, vertices: set<Id>, edges: map<Id, EdgeRec>)

  /** A newly created store with nothing in it (the model of `Pacer.tg`). */
  function EmptyGraph(handle: nat): (g: Graph)
    ensures g.handle == handle && g.vertexName.None?
    ensures g.vertices == {} && g.edges == map[]
  {
    Graph(handle, None, {}, map[])
  }

  /** Every stored edge has both endpoints stored. */
  ghost predicate WellFormed(g: Graph) {
    forall id | id in g.edges :: g.edges[id].outId in g.vertices && g.edges[id].inId in g.vertices
  }

  /** Both endpoints of `e` are vertices of `g`. */
  predicate Present(g: Graph, e: Edge) {
    e.outId in g.vertices && e.inId in g.vertices
  }

  /** `g` holds `e` under its Id with its label and endpoints. */
  predicate Stored(g: Graph, e: Edge) {
    e.id in g.edges && g.edges[e.id] == Rec(e)
  }

  ghost predicate NoDup<T>(s: seq<T>) {
    forall i, j | 0 <= i < j < |s| :: s[i] != s[j]
  }

  /** `a` can be obtained from `b` by deleting elements: `a`'s elements occur
      in `b` in the same order. */
  ghost predicate Subsequence<T>(a: seq<T>, b: seq<T>)
    decreases |b|
  {
    if |a| == 0 then true
    else if |b| == 0 then false
    else (a[0] == b[0] && Subsequence(a[1..], b[1..])) || Subsequence(a, b[1..])
  }

  /** A subsequence of `b`'s tail is one of `b`; prefixed with `b`'s head it
      still is. */
  lemma SubsequenceStep<T>(a: seq<T>, b: seq<T>)
    requires |b| > 0 && Subsequence(a, b[1..])
    ensures Subsequence(a, b) && Subsequence([b[0]] + a, b)
  {
    assert ([b[0]] + a)[1..] == a;
  }

  /** Subsequences of two sequences concatenate to a subsequence of their
      concatenation. */
  lemma {:induction false} SubsequenceAppend<T>(a: seq<T>, x: seq<T>, b: seq<T>, y: seq<T>)
    requires Subsequence(a, x) && Subsequence(b, y)
    ensures Subsequence(a + b, x + y)
    decreases |x|
  {
    if |x| == 0 {
      assert a + b == b && x + y == y;
    } else {
      assert (x + y)[1..] == x[1..] + y;
      if |a| > 0 && a[0] == x[0] && Subsequence(a[1..], x[1..]) {
        assert (a + b)[1..] == a[1..] + b;
        SubsequenceAppend(a[1..], x[1..], b, y);
      } else {
        SubsequenceAppend(a, x[1..], b, y);
      }
    }
  }

  /** What `c` adds beyond `a` is what `b` adds, then what `c` adds beyond `b`. */
  lemma SuffixSplit<T>(a: seq<T>, b: seq<T>, c: seq<T>)
    requires a <= b && b <= c
    ensures c[|a|..] == b[|a|..] + c[|b|..]
  {
    assert c[|a|..|b|] == b[|a|..];
  }

  /** The position of the first occurrence of `x` in `s`. */
  function IndexOf<T(==)>(s: seq<T>, x: T): (k: nat)
    requires x in s
    ensures k < |s| && s[k] == x
    ensures forall i :: 0 <= i < k ==> s[i] != x
    decreases |s|
  {
    if s[0] == x then 0
    else
      assert forall i :: 1 <= i < |s| ==> s[1..][i - 1] == s[i];
      1 + IndexOf(s[1..], x)
  }

  function Ids(vs: seq<Vertex>): set<Id> {
    set v | v in vs :: v.id
  }

  /** The vertices of a path, in path order (`path.select { |e| e.is_a? Vertex }`). */
  function VerticesOf(p: Path): (vs: seq<Vertex>)
    ensures forall v :: v in vs <==> VertexElem(v) in p
  {
    if |p| == 0 then []
    else
      assert p == [p[0]] + p[1..];
      (if p[0].VertexElem? then [p[0].vertex] else []) + VerticesOf(p[1..])
  }

  /** The edges of a path, in path order (`path.select { |e| e.is_a? Edge }`). */
  function EdgesOf(p: Path): (es: seq<Edge>)
    ensures forall e :: e in es <==> EdgeElem(e) in p
  {
    if |p| == 0 then []
    else
      assert p == [p[0]] + p[1..];
      (if p[0].EdgeElem? then [p[0].edge] else []) + EdgesOf(p[1..])
  }

  /** Selecting vertices keeps path order: it works on each part of a path
      independently. */
  lemma {:induction false} VerticesOfAppend(a: Path, b: Path)
    ensures VerticesOf(a + b) == VerticesOf(a) + VerticesOf(b)
  {
    if |a| > 0 {
      assert (a + b)[0] == a[0];
      assert (a + b)[1..] == a[1..] + b;
      VerticesOfAppend(a[1..], b);
    } else {
      assert a + b == b;
    }
  }

  /** Selecting edges keeps path order, so the missing set receives a path's
      edges in the order the path visits them. */
  lemma {:induction false} EdgesOfAppend(a: Path, b: Path)
    ensures EdgesOf(a + b) == EdgesOf(a) + EdgesOf(b)
  {
    if |a| > 0 {
      assert (a + b)[0] == a[0];
      assert (a + b)[1..] == a[1..] + b;
      EdgesOfAppend(a[1..], b);
    } else {
      assert a + b == b;
    }
  }

  /** Some vertex with Id `id` occurs in path `p`. */
  ghost predicate HasVertexId(p: Path, id: Id) {
    exists v :: VertexElem(v) in p && v.id == id
  }

  /** Some vertex with Id `id` occurs anywhere in the input paths. */
  ghost predicate VertexInPaths(paths: seq<Path>, id: Id) {
    exists i :: 0 <= i < |paths| && HasVertexId(paths[i], id)
  }

  /** Edge `e` occurs anywhere in the input paths. */
  ghost predicate EdgeInPaths(paths: seq<Path>, e: Edge) {
    exists i :: 0 <= i < |paths| && EdgeElem(e) in paths[i]
  }

  /** The edges of all paths, path after path, each in path order. */
  function EdgesOfPaths(paths: seq<Path>): (es: seq<Edge>)
    ensures forall e :: e in es <==> EdgeInPaths(paths, e)
    decreases |paths|
  {
    if |paths| == 0 then []
    else
      SplitPaths(paths);
      EdgesOf(paths[0]) + EdgesOfPaths(paths[1..])
  }

  /** No edge of `es` other than `e` itself carries `e`'s Id. */
  ghost predicate NoClash(es: seq<Edge>, e: Edge) {
    forall e2 :: e2 in es && e2.id == e.id ==> e2 == e
  }

  /** No edge of the input paths other than `e` itself carries `e`'s Id. */
  ghost predicate NoClashInPaths(paths: seq<Path>, e: Edge) {
    forall e2 :: EdgeInPaths(paths, e2) && e2.id == e.id ==> e2 == e
  }

  /** Each Id names one edge throughout the input, as it does in the source graph. */
  ghost predicate UniqueEdgeIds(paths: seq<Path>) {
    forall e :: EdgeInPaths(paths, e) ==> NoClashInPaths(paths, e)
  }

  lemma VertexIdsOfPath(p: Path)
    ensures forall id :: id in Ids(VerticesOf(p)) <==> HasVertexId(p, id)
  {
  }

  /** Splitting the input into its first path and the rest. */
  lemma SplitPaths(paths: seq<Path>)
    requires |paths| > 0
    ensures forall id :: VertexInPaths(paths, id) <==> HasVertexId(paths[0], id) || VertexInPaths(paths[1..], id)
    ensures forall e :: EdgeInPaths(paths, e) <==> EdgeElem(e) in paths[0] || EdgeInPaths(paths[1..], e)
  {
  }
}

=== FILE: path_helpers.dfy ===
/**
  The per-path helpers of a path route: each maps or filters the sequence of
  paths one path at a time.
 */
module PathHelpers {
  import opened Elements

  // ------------------------------------------------------------ transpose

  /** Every row as long as the first one. */
  predicate Rectangular<T>(m: seq<seq<T>>) {
    forall i :: 0 <= i < |m| ==> |m[i]| == |m[0]|
  }

  /** `transpose`: Ruby's `Array#transpose` over the paths; rows of unequal
      length raise `IndexError`, modelled as `None`. */
  function Transpose<T>(m: seq<seq<T>>): (r: Option<seq<seq<T>>>)
    ensures r.Some? <==> Rectangular(m)
    ensures r.Some? ==> |r.value| == (if |m| == 0 then 0 else |m[0]|)
    ensures r.Some? ==> forall j :: 0 <= j < |r.value| ==> |r.value[j]| == |m|
    ensures r.Some? ==> forall j, i :: 0 <= j < |r.value| && 0 <= i < |m| ==> r.value[j][i] == m[i][j]
  {
    if |m| == 0 then Some([])
    else if !Rectangular(m) then None
    else Some(seq(|m[0]|, j requires 0 <= j < |m[0]| => seq(|m|, i requires 0 <= i < |m| => m[i][j])))
  }

  /** Transposing twice gives back a non-empty rectangular input. */
  lemma TransposeTwice<T>(m: seq<seq<T>>)
    requires Rectangular(m) && |m| > 0 && |m[0]| > 0
    ensures Transpose(m).Some?
    ensures Transpose(Transpose(m).value) == Some(m)
  {
    var t := Transpose(m).value;
    assert |t[0]| == |m|;
    assert Rectangular(t);
    var b := Transpose(t).value;
    assert |b| == |m|;
    forall i | 0 <= i < |m|
      ensures b[i] == m[i]
    {
      assert |b[i]| == |t| == |m[i]|;
      forall j | 0 <= j < |m[i]|
        ensures b[i][j] == m[i][j]
      {
        assert b[i][j] == t[j][i];
      }
    }
    assert b == m;
  }

  // ------------------------------------------- heads, tails and pairs

  /** `path[i]` under Ruby's `Array#[]`: a negative index counts from the
      end, and an index out of range yields nil. */
  function At(p: Path, i: int): Element {
    if 0 <= i < |p| then p[i]
    else if -|p| <= i < 0 then p[|p| + i]
    else Nil
  }

  /** Ruby indexing agrees with the remainder modulo the length for every
      index in range, and is nil elsewhere. */
  lemma AtIsModular(p: Path, i: int)
    ensures At(p, i) == if -|p| <= i < |p| then p[i % |p|] else Nil
  {
    if -|p| <= i < 0 {
      assert i % |p| == |p| + i;
    }
  }

  /** `path.first`. */
  function First(p: Path): Element {
    if |p| == 0 then Nil else p[0]
  }

  /** `path.last`. */
  function Last(p: Path): Element {
    if |p| == 0 then Nil else p[|p| - 1]
  }

  /** `heads`: the first element of each path, nil for an empty path. */
  function Heads(paths: seq<Path>): (r: seq<Element>)
    ensures |r| == |paths|
    ensures forall i :: 0 <= i < |paths| ==> r[i] == At(paths[i], 0)
  {
    seq(|paths|, i requires 0 <= i < |paths| => First(paths[i]))
  }

  /** `tails`: the last element of each path, nil for an empty path. */
  function Tails(paths: seq<Path>): (r: seq<Element>)
    ensures |r| == |paths|
    ensures forall i :: 0 <= i < |paths| ==> r[i] == At(paths[i], -1)
  {
    seq(|paths|, i requires 0 <= i < |paths| => Last(paths[i]))
  }

  /** `pairs(head, tail)`: the two-element path `[path[head], path[tail]]`
      for each path. */
  function Pairs(paths: seq<Path>, head: int, tail: int): (r: seq<Path>)
    ensures |r| == |paths|
    ensures forall i :: 0 <= i < |paths| ==> |r[i]| == 2
  {
    seq(|paths|, i requires 0 <= i < |paths| => [At(paths[i], head), At(paths[i], tail)])
  }

  /** With its default indices `pairs` pairs each path's head with its tail. */
  lemma PairsDefaultIsHeadAndTail(paths: seq<Path>)
    ensures forall i :: 0 <= i < |paths| ==> Pairs(paths, 0, -1)[i] == [Heads(paths)[i], Tails(paths)[i]]
  {
  }

  /** Each pair holds the path's elements at the two indices, taken modulo
      the path's length when in range, and nil otherwise. */
  lemma PairsPickModular(paths: seq<Path>, head: int, tail: int, i: int)
    requires 0 <= i < |paths|
    ensures var p := paths[i];
      Pairs(paths, head, tail)[i][0] == (if -|p| <= head < |p| then p[head % |p|] else Nil)
    ensures var p := paths[i];
      Pairs(paths, head, tail)[i][1] == (if -|p| <= tail < |p| then p[tail % |p|] else Nil)
  {
    AtIsModular(paths[i], head);
    AtIsModular(paths[i], tail);
  }

  // ------------------------------------------------------------------ len

  /** The argument of `len(n)`: an Integer, or a Range `lo..hi` / `lo...hi`. */
  datatype LengthMatcher = Exactly(n: int) | Within(lo: int, hi: int, excludeEnd: bool)

  /** `n === path.length`. */
  predicate Matches(m: LengthMatcher, length: nat) {
    match m
    case Exactly(n) => n == length
    case Within(lo, hi, excludeEnd) => lo <= length && (if excludeEnd then length < hi else length <= hi)
  }

  /** `len(n)`: keep, in order, the paths whose length `n` matches. */
  function Len(paths: seq<Path>, m: LengthMatcher): (r: seq<Path>)
    ensures |r| <= |paths|
    ensures forall q :: q in r ==> q in paths && Matches(m, |q|)
    ensures forall q :: q in paths && Matches(m, |q|) ==> q in r
  {
    if |paths| == 0 then []
    else
      assert paths == [paths[0]] + paths[1..];
      (if Matches(m, |paths[0]|) then [paths[0]] else []) + Len(paths[1..], m)
  }

  /** `len` keeps every matching path as often as it occurs and drops every
      other one. */
  lemma {:induction false} LenCounts(paths: seq<Path>, m: LengthMatcher)
    ensures forall q :: multiset(Len(paths, m))[q] == if Matches(m, |q|) then multiset(paths)[q] else 0
  {
    if |paths| > 0 {
      assert paths == [paths[0]] + paths[1..];
      LenCounts(paths[1..], m);
    }
  }

  /** `len` filters each part of the input independently and keeps order. */
  lemma {:induction false} LenAppend(a: seq<Path>, b: seq<Path>, m: LengthMatcher)
    ensures Len(a + b, m) == Len(a, m) + Len(b, m)
  {
    if |a| > 0 {
      assert (a + b)[1..] == a[1..] + b;
      LenAppend(a[1..], b, m);
    } else {
      assert a + b == b;
    }
  }

  /** Filtering twice by the same length changes nothing. */
  lemma {:induction false} LenIdempotent(paths: seq<Path>, m: LengthMatcher)
    ensures Len(Len(paths, m), m) == Len(paths, m)
  {
    if |paths| > 0 {
      var h := if Matches(m, |paths[0]|) then [paths[0]] else [];
      var rest := Len(paths[1..], m);
      assert Len(paths, m) == h + rest;
      LenAppend(h, rest, m);
      assert h == [] || h[1..] == [];
      assert Len(h, m) == h;
      LenIdempotent(paths[1..], m);
    }
  }

  // --------------------------------------------------------- compact_paths

  /** `path.compact`: drop the nils, keep everything else in order. */
  function Compact(p: Path): (r: Path)
    ensures Nil !in r
    ensures forall x :: x != Nil ==> multiset(r)[x] == multiset(p)[x]
    ensures |r| == |p| - multiset(p)[Nil]
  {
    if |p| == 0 then []
    else
      assert p == [p[0]] + p[1..];
      (if p[0] == Nil then [] else [p[0]]) + Compact(p[1..])
  }

  /** `compact_paths`: every path loses its nils and nothing else. */
  function CompactPaths(paths: seq<Path>): (r: seq<Path>)
    ensures |r| == |paths|
    ensures forall i :: 0 <= i < |paths| ==> Nil !in r[i]
    ensures forall i, x :: 0 <= i < |paths| && x != Nil ==> multiset(r[i])[x] == multiset(paths[i])[x]
  {
    seq(|paths|, i requires 0 <= i < |paths| => Compact(paths[i]))
  }

  /** Compacting keeps order: it works on each part of a path independently. */
  lemma {:induction false} CompactAppend(a: Path, b: Path)
    ensures Compact(a + b) == Compact(a) + Compact(b)
  {
    if |a| > 0 {
      var h := if a[0] == Nil then [] else [a[0]];
      assert (a + b)[0] == a[0];
      assert (a + b)[1..] == a[1..] + b;
      assert Compact(a + b) == h + Compact(a[1..] + b);
      assert Compact(a) == h + Compact(a[1..]);
      CompactAppend(a[1..], b);
      assert h + (Compact(a[1..]) + Compact(b)) == (h + Compact(a[1..])) + Compact(b);
    } else {
      assert a + b == b;
    }
  }

  /** A path without nils is left as it is, so compacting is idempotent. */
  lemma {:induction false} CompactWithoutNils(p: Path)
    requires Nil !in p
    ensures Compact(p) == p
  {
    if |p| > 0 {
      assert p[0] != Nil;
      assert Nil !in p[1..];
      CompactWithoutNils(p[1..]);
    }
  }

  lemma CompactIdempotent(p: Path)
    ensures Compact(Compact(p)) == Compact(p)
  {
    CompactWithoutNils(Compact(p));
  }
}

=== FILE: path_trees.dfy ===
/**
  `hashify`: fold one path into a nested hash that shows the properties of
  its vertices and, under each edge label, the tree of the rest of the path.
 */
module PathTrees {
  import opened Elements

  /** A value in the hash: a vertex property, or the one-element list that
      an edge label maps to. */
  datatype Node = Prop(value: int) | Nested(trees: seq<Tree>)

  datatype Tree = Tree(entries: map<string, Node>)

  const EmptyTree := Tree(map[])

  function PropertyEntries(props: map<string, int>): map<string, Node> {
    map k | k in props :: Prop(props[k])
  }

  /** One step of the reduction. A vertex merges its properties over the
      tree (its values win); an edge wraps the tree as `{ label => [tree] }`;
      any other value has no `element_type`, which Ruby reports as an
      error, here `None`. */
  function Step(tree: Tree, element: Element): Option<Tree> {
    match element
    case VertexElem(v) => Some(Tree(tree.entries + PropertyEntries(v.properties)))
    case EdgeElem(e) => Some(Tree(map[e.edgeLabel := Nested([tree])]))
    case _ => None
  }

  /** Every element is a vertex or an edge. */
  predicate GraphElementsOnly(path: Path) {
    forall i :: 0 <= i < |path| ==> path[i].VertexElem? || path[i].EdgeElem?
  }

  /** The tree of a path, defined from the front: the first element is
      applied to the tree of the rest. */
  function HashTree(path: Path): (r: Option<Tree>)
    ensures r.Some? <==> GraphElementsOnly(path)
  {
    if |path| == 0 then Some(EmptyTree)
    else
      assert forall i :: 1 <= i < |path| ==> path[1..][i - 1] == path[i];
      match HashTree(path[1..])
      case None => None
      case Some(t) => Step(t, path[0])
  }

  /** `hashify` on one path: `path.to_a.reverse.reduce({}) { ... }`, walking
      the path from its last element to its first. */
  method Hashify(path: Path) returns (r: Option<Tree>)
    ensures r == HashTree(path)
  {
    var tree := EmptyTree;
    var i := |path|;
    while i > 0
      invariant 0 <= i <= |path|
      invariant HashTree(path[i..]) == Some(tree)
    {
      assert path[i - 1..][1..] == path[i..];
      var next := Step(tree, path[i - 1]);
      if next.None? {
        assert !GraphElementsOnly(path);
        return None;
      }
      tree := next.value;
      i := i - 1;
    }
    assert path[0..] == path;
    return Some(tree);
  }

  /** Position of the first edge of a path, or its length if it has none. */
  function FirstEdge(path: Path): (k: nat)
    ensures k <= |path|
    ensures forall i :: 0 <= i < k ==> !path[i].EdgeElem?
    ensures k < |path| ==> path[k].EdgeElem?
  {
    if |path| == 0 then 0
    else if path[0].EdgeElem? then 0
    else
      assert forall i :: 1 <= i < |path| ==> path[1..][i - 1] == path[i];
      1 + FirstEdge(path[1..])
  }

  /** Some vertex among the first `k` elements has the property `key`. */
  predicate PropertyBefore(path: Path, k: int, key: string)
    requires k <= |path|
  {
    exists i :: 0 <= i < k && path[i].VertexElem? && key in path[i].vertex.properties
  }

  /** The top level of the tree holds exactly the property keys of the
      vertices before the first edge, plus that edge's label. */
  lemma {:induction false} RootKeys(path: Path)
    requires GraphElementsOnly(path)
    ensures var t := HashTree(path).value;
      var k := FirstEdge(path);
      forall key :: key in t.entries <==>
        || PropertyBefore(path, k, key)
        || (k < |path| && key == path[k].edge.edgeLabel)
  {
    if |path| > 0 && path[0].VertexElem? {
      var rest := path[1..];
      assert forall i :: 1 <= i < |path| ==> rest[i - 1] == path[i];
      assert GraphElementsOnly(rest);
      RootKeys(rest);
      var k := FirstEdge(path);
      assert k == 1 + FirstEdge(rest);
      var tr := HashTree(rest).value;
      var t := HashTree(path).value;
      assert t.entries == tr.entries + PropertyEntries(path[0].vertex.properties);
      forall key
        ensures PropertyBefore(path, k, key) <==>
          key in path[0].vertex.properties || PropertyBefore(rest, k - 1, key)
      {
        if PropertyBefore(path, k, key) {
          var i :| 0 <= i < k && path[i].VertexElem? && key in path[i].vertex.properties;
          if i > 0 {
            assert rest[i - 1] == path[i];
          }
        }
        if PropertyBefore(rest, k - 1, key) {
          var j :| 0 <= j < k - 1 && rest[j].VertexElem? && key in rest[j].vertex.properties;
          assert path[j + 1] == rest[j];
        }
      }
      assert k < |path| ==> path[k] == rest[k - 1];
    } else if |path| > 0 {
      assert FirstEdge(path) == 0;
    }
  }

  /** The first edge nests the tree of everything after it beneath its
      label, unless a vertex before it has a property of the same name. */
  lemma {:induction false} FirstEdgeNestsRest(path: Path)
    requires GraphElementsOnly(path)
    requires FirstEdge(path) < |path|
    requires forall i :: 0 <= i < FirstEdge(path) && path[i].VertexElem? ==> path[FirstEdge(path)].edge.edgeLabel !in path[i].vertex.properties
    ensures var k := FirstEdge(path);
      var t := HashTree(path).value;
      var name := path[k].edge.edgeLabel;
      name in t.entries && t.entries[name] == Nested([HashTree(path[k + 1..]).value])
  {
    var rest := path[1..];
    assert forall i :: 1 <= i < |path| ==> rest[i - 1] == path[i];
    if path[0].VertexElem? {
      var k := FirstEdge(path);
      assert k == 1 + FirstEdge(rest);
      assert rest[k - 1] == path[k];
      assert rest[k..] == path[k + 1..];
      FirstEdgeNestsRest(rest);
    }
  }
}

=== FILE: subgraph.dfy ===
/**
  `PathRoute#subgraph`: copy every vertex and edge touched by a sequence of
  traversal paths into a target graph.

  Phase 1 walks the paths in order; for each path it clones all of the path's
  vertices, then tries each of the path's edges with missing endpoints
  tolerated, and remembers every edge that could not be placed. Phase 2 runs
  only when something was remembered: it retries each remembered edge once
  with the caller's own missing-vertex policy.
 */
module SubgraphCore {
  import opened Elements
  import opened Cloner

  /** The options `subgraph` accepts. `createVertices` is documented in the
      help text but never forwarded to `clone_into`. */
  datatype Options = Options(createVertices: bool, ignoreMissingVertices: bool, showMissingVertices: bool)

  /** The policy Phase 1 passes to every edge clone: `ignore_missing_vertices: true`. */
  const Tolerant := Policy(true, false)

  /** The caller's two flags, forwarded unchanged to the Phase 2 clones. */
  function CallerPolicy(opts: Options): Policy {
    Policy(opts.ignoreMissingVertices, opts.showMissingVertices)
  }

  /** Phase 1 state: the target so far and the missing-edge set, kept as a
      duplicate-free sequence in insertion order (Ruby's `Set` is ordered). */
  datatype Scan = Scan(target: Graph, missing: seq<Edge>)

  /** `missing_edges << edge`: adding an edge already held changes nothing. */
  function AddMissing(ms: seq<Edge>, e: Edge): (r: seq<Edge>)
    requires NoDup(ms)
    ensures NoDup(r) && ms <= r
    ensures forall x :: x in r <==> x in ms || x == e
    ensures e in ms ==> r == ms
  {
    if e in ms then ms else ms + [e]
  }

  lemma PrefixMembers<T>(a: seq<T>, b: seq<T>)
    requires a <= b
    ensures forall x :: x in a ==> x in b
  {
  }

  /** Clone a path's vertices one after another. */
  function CloneVertices(g: Graph, vs: seq<Vertex>): (r: Graph)
    ensures r.vertices == g.vertices + Ids(vs)
    ensures r.edges == g.edges && r.handle == g.handle && r.vertexName == g.vertexName
    ensures WellFormed(g) ==> WellFormed(r)
    decreases |vs|
  {
    if |vs| == 0 then g
    else
      assert vs == [vs[0]] + vs[1..];
      assert Ids(vs) == {vs[0].id} + Ids(vs[1..]);
      CloneVertices(CloneVertex(g, vs[0]), vs[1..])
  }

  /** Try a path's edges one after another under the tolerant policy; an
      edge that cannot be placed joins the missing set. */
  function TryEdges(g: Graph, es: seq<Edge>, missing: seq<Edge>): (r: Scan)
    requires NoDup(missing)
    ensures NoDup(r.missing) && missing <= r.missing
    ensures r.target.vertices == g.vertices && r.target.handle == g.handle && r.target.vertexName == g.vertexName
    ensures WellFormed(g) ==> WellFormed(r.target)
    ensures forall id :: id in r.target.edges <==> id in g.edges || exists e :: e in es && Present(g, e) && e.id == id
    ensures forall e :: e in r.missing <==> e in missing || (e in es && !Present(g, e))
    ensures forall e :: Stored(g, e) && NoClash(es, e) ==> Stored(r.target, e)
    ensures forall e :: e in es && Present(g, e) && NoClash(es, e) ==> Stored(r.target, e)
    decreases |es|
  {
    if |es| == 0 then Scan(g, missing)
    else
      assert es == [es[0]] + es[1..];
      var o := CloneEdge(g, es[0], Tolerant);
      if o.Placed? then
        assert forall x :: Present(o.target, x) == Present(g, x);
        TryEdges(o.target, es[1..], missing)
      else TryEdges(g, es[1..], AddMissing(missing, es[0]))
  }

  /** One path of Phase 1: all its vertices first, then its edges. */
  function ScanPath(st: Scan, p: Path): (r: Scan)
    requires NoDup(st.missing)
    ensures NoDup(r.missing) && st.missing <= r.missing
    ensures r.target.handle == st.target.handle && r.target.vertexName == st.target.vertexName
    ensures WellFormed(st.target) ==> WellFormed(r.target)
    ensures forall id :: id in r.target.vertices <==> id in st.target.vertices || HasVertexId(p, id)
    ensures forall id :: id in r.target.edges <==> id in st.target.edges || exists e :: EdgeElem(e) in p && Present(r.target, e) && e.id == id
    ensures forall e :: e in r.missing <==> e in st.missing || (EdgeElem(e) in p && !Present(r.target, e))
    ensures forall e :: Stored(st.target, e) && NoClash(EdgesOf(p), e) ==> Stored(r.target, e)
    ensures forall e :: EdgeElem(e) in p && Present(r.target, e) && NoClash(EdgesOf(p), e) ==> Stored(r.target, e)
  {
    VertexIdsOfPath(p);
    TryEdges(CloneVertices(st.target, VerticesOf(p)), EdgesOf(p), st.missing)
  }

  /** Phase 1 over all paths, in delivery order. It never fails, and the
      missing set stays duplicate-free and only grows. */
  function Phase1(st: Scan, paths: seq<Path>): (r: Scan)
    requires NoDup(st.missing)
    ensures NoDup(r.missing) && st.missing <= r.missing
    ensures r.target.handle == st.target.handle && r.target.vertexName == st.target.vertexName
    decreases |paths|
  {
    if |paths| == 0 then st
    else Phase1(ScanPath(st, paths[0]), paths[1..])
  }

  /** After Phase 1: the target holds every vertex of every path and nothing
      else new; each new edge Id belongs to a path edge whose endpoints are
      present; every path edge is placed or waits in the missing set, and
      every path edge lacking an endpoint waits there. */
  lemma {:induction false} Phase1Facts(st: Scan, paths: seq<Path>)
    requires NoDup(st.missing)
    ensures var r := Phase1(st, paths);
      && (WellFormed(st.target) ==> WellFormed(r.target))
      && (forall id :: id in r.target.vertices <==> id in st.target.vertices || VertexInPaths(paths, id))
      && st.target.edges.Keys <= r.target.edges.Keys
      && (forall id :: id in r.target.edges ==> id in st.target.edges || exists e :: EdgeInPaths(paths, e) && Present(r.target, e) && e.id == id)
      && (forall e :: e in r.missing ==> e in st.missing || EdgeInPaths(paths, e))
      && (forall e :: EdgeInPaths(paths, e) ==> e.id in r.target.edges || e in r.missing)
      && (forall e :: EdgeInPaths(paths, e) && !Present(r.target, e) ==> e in r.missing)
      && (forall e :: Stored(st.target, e) && NoClashInPaths(paths, e) ==> Stored(r.target, e))
      && (forall e :: EdgeInPaths(paths, e) && NoClashInPaths(paths, e) ==> Stored(r.target, e) || e in r.missing)
    decreases |paths|
  {
    if |paths| > 0 {
      var s1 := ScanPath(st, paths[0]);
      Phase1Facts(s1, paths[1..]);
      Phase1Step(st, paths, s1, Phase1(s1, paths[1..]));
    }
  }

  /** The inductive step of Phase 1: the first path, then the rest. */
  lemma Phase1Step(st: Scan, paths: seq<Path>, s1: Scan, r: Scan)
    requires |paths| > 0 && NoDup(st.missing)
    requires s1 == ScanPath(st, paths[0])
    requires st.missing <= s1.missing && s1.missing <= r.missing
    requires WellFormed(st.target) ==> WellFormed(s1.target)
    requires WellFormed(s1.target) ==> WellFormed(r.target)
    requires forall id :: id in s1.target.vertices <==> id in st.target.vertices || HasVertexId(paths[0], id)
    requires forall id :: id in s1.target.edges <==> id in st.target.edges || exists e :: EdgeElem(e) in paths[0] && Present(s1.target, e) && e.id == id
    requires forall e :: e in s1.missing <==> e in st.missing || (EdgeElem(e) in paths[0] && !Present(s1.target, e))
    requires forall e :: Stored(st.target, e) && NoClash(EdgesOf(paths[0]), e) ==> Stored(s1.target, e)
    requires forall e :: EdgeElem(e) in paths[0] && Present(s1.target, e) && NoClash(EdgesOf(paths[0]), e) ==> Stored(s1.target, e)
    requires forall id :: id in r.target.vertices <==> id in s1.target.vertices || VertexInPaths(paths[1..], id)
    requires s1.target.edges.Keys <= r.target.edges.Keys
    requires forall id :: id in r.target.edges ==> id in s1.target.edges || exists e :: EdgeInPaths(paths[1..], e) && Present(r.target, e) && e.id == id
    requires forall e :: e in r.missing ==> e in s1.missing || EdgeInPaths(paths[1..], e)
    requires forall e :: EdgeInPaths(paths[1..], e) ==> e.id in r.target.edges || e in r.missing
    requires forall e :: EdgeInPaths(paths[1..], e) && !Present(r.target, e) ==> e in r.missing
    requires forall e :: Stored(s1.target, e) && NoClashInPaths(paths[1..], e) ==> Stored(r.target, e)
    requires forall e :: EdgeInPaths(paths[1..], e) && NoClashInPaths(paths[1..], e) ==> Stored(r.target, e) || e in r.missing
    ensures WellFormed(st.target) ==> WellFormed(r.target)
    ensures forall id :: id in r.target.vertices <==> id in st.target.vertices || VertexInPaths(paths, id)
    ensures st.target.edges.Keys <= r.target.edges.Keys
    ensures forall id :: id in r.target.edges ==> id in st.target.edges || exists e :: EdgeInPaths(paths, e) && Present(r.target, e) && e.id == id
    ensures forall e :: e in r.missing ==> e in st.missing || EdgeInPaths(paths, e)
    ensures forall e :: EdgeInPaths(paths, e) ==> e.id in r.target.edges || e in r.missing
    ensures forall e :: EdgeInPaths(paths, e) && !Present(r.target, e) ==> e in r.missing
    ensures forall e :: Stored(st.target, e) && NoClashInPaths(paths, e) ==> Stored(r.target, e)
    ensures forall e :: EdgeInPaths(paths, e) && NoClashInPaths(paths, e) ==> Stored(r.target, e) || e in r.missing
  {
    SplitPaths(paths);
    PrefixMembers(s1.missing, r.missing);
  }

  /** Outcome of Phase 2. `retried` lists, in order, the edges a clone was
      attempted for; `reported` the edges complained about. An abort stops
      at `edge`, the first edge whose clone raised. */
  datatype Retry =
    | Finished(target: Graph, retried: seq<Edge>, reported: seq<Edge>)
    | Aborted(target: Graph, retried: seq<Edge>, edge: Edge, missingIds: set<Id>, reported: seq<Edge>)

  /** Record that `e` was attempted before the rest of Phase 2 ran. */
  function Attempted(e: Edge, report: bool, r: Retry): Retry {
    match r
    case Finished(t, ret, rep) => Finished(t, [e] + ret, if report then [e] + rep else rep)
    case Aborted(t, ret, x, ids, rep) => Aborted(t, [e] + ret, x, ids, if report then [e] + rep else rep)
  }

  /** Phase 2: retry each missing edge once under `policy`. Vertices do not
      change here, so each edge's fate is fixed by the Phase 1 target. */
  function Phase2(g: Graph, missing: seq<Edge>, policy: Policy): (r: Retry)
    ensures r.target.vertices == g.vertices && r.target.handle == g.handle && r.target.vertexName == g.vertexName
    ensures g.edges.Keys <= r.target.edges.Keys
    ensures WellFormed(g) ==> WellFormed(r.target)
    ensures r.Finished? ==> r.retried == missing
    ensures r.Aborted? <==> !policy.ignoreMissing && exists e :: e in missing && !Present(g, e)
    decreases |missing|
  {
    if |missing| == 0 then Finished(g, [], [])
    else
      var e := missing[0];
      assert missing == [e] + missing[1..];
      var o := CloneEdge(g, e, policy);
      if o.Unplaced? && o.raised then Aborted(g, [e], e, o.missingIds, if o.complained then [e] else [])
      else
        var g' := if o.Placed? then o.target else g;
        assert g'.vertices == g.vertices;
        assert forall x :: Present(g', x) == Present(g, x);
        assert (exists x :: x in missing && !Present(g, x)) <==> !Present(g, e) || exists x :: x in missing[1..] && !Present(g, x);
        Attempted(e, o.Unplaced? && o.complained, Phase2(g', missing[1..], policy))
  }

  /** What `subgraph` returns: the guard's failure, the populated target, or
      the `ElementNotFound` failure together with the target as the failure
      left it (nothing cloned before it is undone). Both carry the edges
      complained about under `show_missing_vertices`. */
  datatype Outcome =
    | SelfReference
    | Completed(target: Graph, reported: seq<Edge>)
    | ElementNotFound(target: Graph, edge: Edge, missingIds: set<Id>, reported: seq<Edge>)

  /** The target before Phase 1: the caller's graph or a fresh empty one,
      whose vertex name is taken from the source only when it has none. */
  function Prepare(source: Graph, target: Option<Graph>, freshHandle: nat): (t: Graph)
    ensures target.None? ==> t.handle == freshHandle && t.vertices == {} && t.edges == map[]
    ensures target.None? ==> t.vertexName == source.vertexName
    ensures target.Some? && target.value.vertexName.Some? ==> t == target.value
    ensures target.Some? && target.value.vertexName.None? ==> t == target.value.(vertexName := source.vertexName)
  {
    var base := if target.Some? then target.value else EmptyGraph(freshHandle);
    if base.vertexName.Some? then base else base.(vertexName := source.vertexName)
  }

  /** Both phases, starting from the prepared target `t`. */
  function Materialize(t: Graph, paths: seq<Path>, opts: Options): (r: Outcome)
    ensures !r.SelfReference?
    ensures r.target.handle == t.handle && r.target.vertexName == t.vertexName
    ensures forall id :: id in r.target.vertices <==> id in t.vertices || VertexInPaths(paths, id)
    ensures t.edges.Keys <= r.target.edges.Keys
    ensures WellFormed(t) ==> WellFormed(r.target)
  {
    var s := Phase1(Scan(t, []), paths);
    Phase1Facts(Scan(t, []), paths);
    if |s.missing| == 0 then Completed(s.target, [])
    else
      match Phase2(s.target, s.missing, CallerPolicy(opts))
      case Finished(g, _, reported) => Completed(g, reported)
      case Aborted(g, _, e, ids, reported) => ElementNotFound(g, e, ids, reported)
  }

  /** `subgraph(target_graph, opts)` over the paths of a route on `source`.
      `freshHandle` is the identity a newly created target would get. */
  function Subgraph(source: Graph, target: Option<Graph>, freshHandle: nat, paths: seq<Path>, opts: Options): (r: Outcome)
    ensures r.SelfReference? <==> target.Some? && target.value.handle == source.handle
    ensures !r.SelfReference? ==> r.target.handle == (if target.Some? then target.value.handle else freshHandle)
    ensures !r.SelfReference? && target.Some? && target.value.vertexName.Some? ==> r.target.vertexName == target.value.vertexName
    ensures !r.SelfReference? && (target.None? || target.value.vertexName.None?) ==> r.target.vertexName == source.vertexName
    ensures !r.SelfReference? ==> forall id :: id in r.target.vertices <==> id in Prepare(source, target, freshHandle).vertices || VertexInPaths(paths, id)
  {
    if target.Some? && target.value.handle == source.handle then SelfReference
    else Materialize(Prepare(source, target, freshHandle), paths, opts)
  }
}

=== FILE: subgraph_properties.dfy ===
/**
  What `subgraph` guarantees: the deferred-retry protocol, completeness, the
  missing-vertex flags at the level of the whole call, and idempotence.
 */
module SubgraphProperties {
  import opened Elements
  import opened Cloner
  import opened SubgraphCore

  // ---------------------------------------------------------------- Phase 2

  /** A Phase 2 retry keeps every edge already stored, unless another
      retried edge claims the same Id. */
  lemma {:induction false} Phase2Keeps(g: Graph, missing: seq<Edge>, policy: Policy)
    ensures forall e :: Stored(g, e) && NoClash(missing, e) ==> Stored(Phase2(g, missing, policy).target, e)
    decreases |missing|
  {
    if |missing| > 0 {
      var e0 := missing[0];
      assert missing == [e0] + missing[1..];
      var o := CloneEdge(g, e0, policy);
      if !(o.Unplaced? && o.raised) {
        var g' := if o.Placed? then o.target else g;
        Phase2Keeps(g', missing[1..], policy);
        forall e | Stored(g, e) && NoClash(missing, e)
          ensures Stored(g', e) && NoClash(missing[1..], e)
        {
        }
      }
    }
  }

  /** When Phase 2 runs to the end: the edges placed are exactly the
      retried edges whose endpoints are both in the target, each stored with
      its own label and endpoints, and the reported edges are exactly the
      others when the policy asks for complaints. */
  lemma {:induction false} Phase2Finished(g: Graph, missing: seq<Edge>, policy: Policy)
    ensures var r := Phase2(g, missing, policy);
      r.Finished? ==>
        && (forall id :: id in r.target.edges <==> id in g.edges || exists e :: e in missing && Present(g, e) && e.id == id)
        && (forall e :: e in r.reported <==> e in missing && !Present(g, e) && policy.showMissing)
        && (forall e :: e in missing && Present(g, e) && NoClash(missing, e) ==> Stored(r.target, e))
    decreases |missing|
  {
    var r := Phase2(g, missing, policy);
    if |missing| > 0 && r.Finished? {
      var e0 := missing[0];
      var rest := missing[1..];
      assert missing == [e0] + rest;
      var o := CloneEdge(g, e0, policy);
      var g' := if o.Placed? then o.target else g;
      var r' := Phase2(g', rest, policy);
      assert r == Attempted(e0, o.Unplaced? && o.complained, r');
      Phase2Finished(g', rest, policy);
      Phase2Keeps(g', rest, policy);
      forall id | id in r.target.edges
        ensures id in g.edges || exists e :: e in missing && Present(g, e) && e.id == id
      {
        if id !in g.edges && id in g'.edges {
          assert e0 in missing && Present(g, e0) && e0.id == id;
        }
      }
      forall e | e in missing && Present(g, e) && NoClash(missing, e)
        ensures Stored(r.target, e)
      {
        assert NoClash(rest, e);
        if e == e0 {
          assert Stored(g', e);
        }
      }
    }
  }

  /** When Phase 2 stops at a failure: it stopped at the first retried edge
      with a missing endpoint, having attempted each earlier one once and
      kept what those placed; the raise ends the retry, so the target holds no
      other new edge; only that edge may have been complained about. */
  lemma Phase2Aborted(g: Graph, missing: seq<Edge>, policy: Policy)
    ensures var r := Phase2(g, missing, policy);
      r.Aborted? ==>
        && |r.retried| > 0 && r.retried <= missing && r.edge == r.retried[|r.retried| - 1]
        && !Present(g, r.edge) && r.missingIds == MissingEndpoints(g, r.edge)
        && r.reported == (if policy.showMissing then [r.edge] else [])
        && (forall i :: 0 <= i < |r.retried| - 1 ==> Present(g, r.retried[i]))
        && (forall e :: e in r.retried && Present(g, e) && NoClash(missing, e) ==> Stored(r.target, e))
        && (forall id :: id in r.target.edges <==> id in g.edges || exists e :: e in r.retried && Present(g, e) && e.id == id)
  {
    Phase2AbortedAt(g, missing, policy);
    Phase2AbortedKeeps(g, missing, policy);
    Phase2AbortedEdges(g, missing, policy);
  }

  /** The abort comes at the first retried edge lacking an endpoint. */
  lemma {:induction false} Phase2AbortedAt(g: Graph, missing: seq<Edge>, policy: Policy)
    ensures var r := Phase2(g, missing, policy);
      r.Aborted? ==>
        && |r.retried| > 0 && r.retried <= missing && r.edge == r.retried[|r.retried| - 1]
        && !Present(g, r.edge) && r.missingIds == MissingEndpoints(g, r.edge)
        && r.reported == (if policy.showMissing then [r.edge] else [])
        && (forall i :: 0 <= i < |r.retried| - 1 ==> Present(g, r.retried[i]))
    decreases |missing|
  {
    var r := Phase2(g, missing, policy);
    if |missing| > 0 && r.Aborted? {
      var e0 := missing[0];
      var rest := missing[1..];
      assert missing == [e0] + rest;
      var o := CloneEdge(g, e0, policy);
      if o.Placed? {
        var g' := o.target;
        var r' := Phase2(g', rest, policy);
        assert r == Attempted(e0, false, r');
        Phase2AbortedAt(g', rest, policy);
        assert forall e :: Present(g', e) == Present(g, e);
        assert r.retried == [e0] + r'.retried;
        forall i | 0 <= i < |r.retried| - 1
          ensures Present(g, r.retried[i])
        {
          if i > 0 {
            assert r.retried[i] == r'.retried[i - 1];
          }
        }
      }
    }
  }

  /** Edges placed before the abort stay stored. */
  lemma {:induction false} Phase2AbortedKeeps(g: Graph, missing: seq<Edge>, policy: Policy)
    ensures var r := Phase2(g, missing, policy);
      r.Aborted? ==> forall e :: e in r.retried && Present(g, e) && NoClash(missing, e) ==> Stored(r.target, e)
    decreases |missing|
  {
    var r := Phase2(g, missing, policy);
    if |missing| > 0 && r.Aborted? {
      var e0 := missing[0];
      var rest := missing[1..];
      assert missing == [e0] + rest;
      var o := CloneEdge(g, e0, policy);
      if o.Placed? {
        var g' := o.target;
        var r' := Phase2(g', rest, policy);
        assert r == Attempted(e0, false, r');
        Phase2AbortedKeeps(g', rest, policy);
        Phase2Keeps(g', rest, policy);
        forall e | e in r.retried && Present(g, e) && NoClash(missing, e)
          ensures Stored(r.target, e)
        {
          assert NoClash(rest, e);
          if e == e0 {
            assert Stored(g', e);
          }
        }
      }
    }
  }

  /** The raise ends the retry: an aborted target holds exactly the edges it
      started with plus those of the retried edges that had both endpoints. */
  lemma {:induction false} Phase2AbortedEdges(g: Graph, missing: seq<Edge>, policy: Policy)
    ensures var r := Phase2(g, missing, policy);
      r.Aborted? ==> forall id :: id in r.target.edges <==> id in g.edges || exists e :: e in r.retried && Present(g, e) && e.id == id
    decreases |missing|
  {
    var r := Phase2(g, missing, policy);
    if |missing| > 0 && r.Aborted? {
      var e0 := missing[0];
      var rest := missing[1..];
      assert missing == [e0] + rest;
      var o := CloneEdge(g, e0, policy);
      if o.Placed? {
        var g' := o.target;
        var r' := Phase2(g', rest, policy);
        assert r == Attempted(e0, false, r');
        Phase2AbortedEdges(g', rest, policy);
        assert r.retried == [e0] + r'.retried;
        assert forall e :: Present(g', e) == Present(g, e);
      }
    }
  }

  lemma {:induction false} NoDupCountsOnce<T>(s: seq<T>, x: T)
    requires NoDup(s) && x in s
    ensures multiset(s)[x] == 1
    decreases |s|
  {
    assert s == [s[0]] + s[1..];
    assert NoDup(s[1..]) by {
      forall i, j | 0 <= i < j < |s[1..]|
        ensures s[1..][i] != s[1..][j]
      {
        assert s[1..][i] == s[i + 1] && s[1..][j] == s[j + 1];
      }
    }
    if x == s[0] {
      forall j | 0 <= j < |s[1..]|
        ensures s[1..][j] != x
      {
        assert s[1..][j] == s[j + 1];
      }
    } else {
      NoDupCountsOnce(s[1..], x);
    }
  }

  /** Each deferred edge is retried exactly once: a completed Phase 2 made
      one attempt per missing edge, and a failed one made at most one. */
  lemma RetriedExactlyOnce(g: Graph, missing: seq<Edge>, policy: Policy)
    requires NoDup(missing)
    ensures var r := Phase2(g, missing, policy);
      r.Finished? ==> forall e :: e in missing ==> multiset(r.retried)[e] == 1
    ensures var r := Phase2(g, missing, policy);
      r.Aborted? ==> forall e :: e in r.retried ==> multiset(r.retried)[e] == 1
  {
    var r := Phase2(g, missing, policy);
    if r.Finished? {
      forall e | e in missing
        ensures multiset(r.retried)[e] == 1
      {
        NoDupCountsOnce(missing, e);
      }
    } else {
      Phase2Aborted(g, missing, policy);
      assert r.retried == missing[..|r.retried|];
      assert NoDup(r.retried) by {
        forall i, j | 0 <= i < j < |r.retried|
          ensures r.retried[i] != r.retried[j]
        {
          assert r.retried[i] == missing[i] && r.retried[j] == missing[j];
        }
      }
      forall e | e in r.retried
        ensures multiset(r.retried)[e] == 1
      {
        NoDupCountsOnce(r.retried, e);
      }
    }
  }

  // ---------------------------------------------------------------- Phase 1

  /** Vertices before edges: an edge whose two endpoints occur as vertices in
      its own path is placed while that path is scanned and never deferred. */
  lemma SamePathEdgeNeverDeferred(st: Scan, p: Path, e: Edge)
    requires NoDup(st.missing)
    requires EdgeElem(e) in p && HasVertexId(p, e.outId) && HasVertexId(p, e.inId)
    ensures e.id in ScanPath(st, p).target.edges
    ensures e in ScanPath(st, p).missing ==> e in st.missing
    ensures NoClash(EdgesOf(p), e) ==> Stored(ScanPath(st, p).target, e)
  {
    var r := ScanPath(st, p);
    assert Present(r.target, e);
  }

  /** A path whose edges all have both endpoints among its own vertices. */
  ghost predicate SelfContained(p: Path) {
    forall e :: EdgeElem(e) in p ==> HasVertexId(p, e.outId) && HasVertexId(p, e.inId)
  }

  lemma {:induction false} TryEdgesAllPresent(g: Graph, es: seq<Edge>, missing: seq<Edge>)
    requires NoDup(missing)
    requires forall e :: e in es ==> Present(g, e)
    ensures TryEdges(g, es, missing).missing == missing
    decreases |es|
  {
    if |es| > 0 {
      var o := CloneEdge(g, es[0], Tolerant);
      assert o.Placed?;
      TryEdgesAllPresent(o.target, es[1..], missing);
    }
  }

  lemma {:induction false} SelfContainedScanAddsNothing(st: Scan, paths: seq<Path>)
    requires NoDup(st.missing)
    requires forall i :: 0 <= i < |paths| ==> SelfContained(paths[i])
    ensures Phase1(st, paths).missing == st.missing
    decreases |paths|
  {
    if |paths| > 0 {
      var p := paths[0];
      assert SelfContained(p);
      VertexIdsOfPath(p);
      var g := CloneVertices(st.target, VerticesOf(p));
      TryEdgesAllPresent(g, EdgesOf(p), st.missing);
      SelfContainedScanAddsNothing(ScanPath(st, p), paths[1..]);
    }
  }

  /** Phase 2 is skipped entirely when Phase 1 deferred nothing: the call
      completes with the Phase 1 target and no complaint, whatever the
      policy. */
  lemma Phase2SkippedWhenNothingMissing(t: Graph, paths: seq<Path>, opts: Options)
    requires Phase1(Scan(t, []), paths).missing == []
    ensures Materialize(t, paths, opts) == Completed(Phase1(Scan(t, []), paths).target, [])
  {
  }

  /** Phase 1 defers nothing, and so Phase 2 is skipped, whenever every path
      carries the endpoints of its own edges. */
  lemma SelfContainedPathsSkipPhase2(t: Graph, paths: seq<Path>, opts: Options)
    requires forall i :: 0 <= i < |paths| ==> SelfContained(paths[i])
    ensures Phase1(Scan(t, []), paths).missing == []
    ensures Materialize(t, paths, opts) == Completed(Phase1(Scan(t, []), paths).target, [])
  {
    SelfContainedScanAddsNothing(Scan(t, []), paths);
    Phase2SkippedWhenNothingMissing(t, paths, opts);
  }

  /** `missing_edges` keeps insertion order: the edges one run of `TryEdges`
      adds to the missing set appear in the order the path lists them. */
  lemma {:induction false} TryEdgesInOrder(g: Graph, es: seq<Edge>, missing: seq<Edge>)
    requires NoDup(missing)
    ensures Subsequence(TryEdges(g, es, missing).missing[|missing|..], es)
    decreases |es|
  {
    if |es| > 0 {
      var r := TryEdges(g, es, missing);
      var o := CloneEdge(g, es[0], Tolerant);
      if o.Placed? {
        assert r == TryEdges(o.target, es[1..], missing);
        TryEdgesInOrder(o.target, es[1..], missing);
        SubsequenceStep(r.missing[|missing|..], es);
      } else if es[0] in missing {
        assert r == TryEdges(g, es[1..], missing);
        TryEdgesInOrder(g, es[1..], missing);
        SubsequenceStep(r.missing[|missing|..], es);
      } else {
        var m := missing + [es[0]];
        assert r == TryEdges(g, es[1..], m);
        TryEdgesInOrder(g, es[1..], m);
        SuffixSplit(missing, m, r.missing);
        assert m[|missing|..] == [es[0]];
        SubsequenceStep(r.missing[|m|..], es);
      }
    }
  }

  /** The edges one path defers join the missing set in path order. */
  lemma ScanPathInOrder(st: Scan, p: Path)
    requires NoDup(st.missing)
    ensures Subsequence(ScanPath(st, p).missing[|st.missing|..], EdgesOf(p))
  {
    TryEdgesInOrder(CloneVertices(st.target, VerticesOf(p)), EdgesOf(p), st.missing);
  }

  /** Phase 1 appends deferred edges in input order: path by path, and within
      a path in path order. Phase 2 retries them in that order. */
  lemma {:induction false} Phase1InOrder(st: Scan, paths: seq<Path>)
    requires NoDup(st.missing)
    ensures Subsequence(Phase1(st, paths).missing[|st.missing|..], EdgesOfPaths(paths))
    decreases |paths|
  {
    var r := Phase1(st, paths);
    if |paths| == 0 {
      assert r.missing[|st.missing|..] == [];
    } else {
      var s1 := ScanPath(st, paths[0]);
      ScanPathInOrder(st, paths[0]);
      Phase1InOrder(s1, paths[1..]);
      assert r == Phase1(s1, paths[1..]);
      SuffixSplit(st.missing, s1.missing, r.missing);
      SubsequenceAppend(s1.missing[|st.missing|..], EdgesOf(paths[0]), r.missing[|s1.missing|..], EdgesOfPaths(paths[1..]));
    }
  }

  // ----------------------------------------------------------- both phases

  /** Everything both phases establish, starting from the prepared target. */
  lemma MaterializeFacts(t: Graph, paths: seq<Path>, opts: Options)
    ensures var r := Materialize(t, paths, opts);
      r.Completed? ==> forall id :: id in r.target.edges <==> id in t.edges || exists e :: EdgeInPaths(paths, e) && Present(r.target, e) && e.id == id
    ensures var r := Materialize(t, paths, opts);
      r.Completed? ==> forall e :: EdgeInPaths(paths, e) && Present(r.target, e) ==> e.id in r.target.edges
    ensures var r := Materialize(t, paths, opts);
      r.Completed? && UniqueEdgeIds(paths) ==> forall e :: EdgeInPaths(paths, e) && Present(r.target, e) ==> Stored(r.target, e)
    ensures var r := Materialize(t, paths, opts);
      r.Completed? ==> forall e :: e in r.reported <==> EdgeInPaths(paths, e) && !Present(r.target, e) && opts.showMissingVertices
    ensures var r := Materialize(t, paths, opts);
      r.ElementNotFound? <==> !opts.ignoreMissingVertices && exists e :: EdgeInPaths(paths, e) && !Present(r.target, e)
    ensures var r := Materialize(t, paths, opts);
      r.ElementNotFound? ==> EdgeInPaths(paths, r.edge) && !Present(r.target, r.edge) && r.missingIds == MissingEndpoints(r.target, r.edge)
    ensures var r := Materialize(t, paths, opts);
      r.ElementNotFound? ==> r.reported == (if opts.showMissingVertices then [r.edge] else [])
    ensures var r := Materialize(t, paths, opts);
      r.ElementNotFound? ==> Phase1(Scan(t, []), paths).target.edges.Keys <= r.target.edges.Keys
  {
    CompletedEdges(t, paths, opts);
    CompletedStored(t, paths, opts);
    CompletedReports(t, paths, opts);
    FailsExactlyWhenStrict(t, paths, opts);
    FailureNamesPathEdge(t, paths, opts);
  }

  /** A completed call adds exactly the Ids of the path edges whose
      endpoints are present, and every such Id. */
  lemma CompletedEdges(t: Graph, paths: seq<Path>, opts: Options)
    ensures var r := Materialize(t, paths, opts);
      r.Completed? ==> forall id :: id in r.target.edges <==> id in t.edges || exists e :: EdgeInPaths(paths, e) && Present(r.target, e) && e.id == id
    ensures var r := Materialize(t, paths, opts);
      r.Completed? ==> forall e :: EdgeInPaths(paths, e) && Present(r.target, e) ==> e.id in r.target.edges
  {
    var r := Materialize(t, paths, opts);
    var s := Phase1(Scan(t, []), paths);
    Phase1Facts(Scan(t, []), paths);
    if |s.missing| == 0 {
      assert r == Completed(s.target, []);
      forall e | EdgeInPaths(paths, e) && Present(r.target, e)
        ensures e.id in r.target.edges
      {
        assert e !in s.missing;
      }
    } else if r.Completed? {
      var policy := CallerPolicy(opts);
      var r2 := Phase2(s.target, s.missing, policy);
      Phase2Finished(s.target, s.missing, policy);
      assert r == Completed(r2.target, r2.reported);
      forall id | id in r.target.edges
        ensures id in t.edges || exists e :: EdgeInPaths(paths, e) && Present(r.target, e) && e.id == id
      {
        if id !in s.target.edges {
          var e :| e in s.missing && Present(s.target, e) && e.id == id;
          assert EdgeInPaths(paths, e);
        }
      }
      forall e | EdgeInPaths(paths, e) && Present(r.target, e)
        ensures e.id in r.target.edges
      {
        if e in s.missing {
          assert e in s.missing && Present(s.target, e) && e.id == e.id;
        }
      }
    }
  }

  /** With unique edge Ids, a completed call stores every path edge whose
      endpoints are present with its own label and endpoints. */
  lemma CompletedStored(t: Graph, paths: seq<Path>, opts: Options)
    ensures var r := Materialize(t, paths, opts);
      r.Completed? && UniqueEdgeIds(paths) ==> forall e :: EdgeInPaths(paths, e) && Present(r.target, e) ==> Stored(r.target, e)
  {
    var r := Materialize(t, paths, opts);
    var s := Phase1(Scan(t, []), paths);
    Phase1Facts(Scan(t, []), paths);
    if |s.missing| > 0 && r.Completed? && UniqueEdgeIds(paths) {
      var policy := CallerPolicy(opts);
      var r2 := Phase2(s.target, s.missing, policy);
      Phase2Finished(s.target, s.missing, policy);
      Phase2Keeps(s.target, s.missing, policy);
      assert r == Completed(r2.target, r2.reported);
      forall e | EdgeInPaths(paths, e) && Present(r.target, e)
        ensures Stored(r.target, e)
      {
        assert NoClashInPaths(paths, e);
        assert NoClash(s.missing, e);
      }
    }
  }

  /** A completed call complains about exactly the path edges that still
      lack an endpoint, and only under `show_missing_vertices`. */
  lemma CompletedReports(t: Graph, paths: seq<Path>, opts: Options)
    ensures var r := Materialize(t, paths, opts);
      r.Completed? ==> forall e :: e in r.reported <==> EdgeInPaths(paths, e) && !Present(r.target, e) && opts.showMissingVertices
  {
    var r := Materialize(t, paths, opts);
    var s := Phase1(Scan(t, []), paths);
    Phase1Facts(Scan(t, []), paths);
    if |s.missing| > 0 && r.Completed? {
      var policy := CallerPolicy(opts);
      var r2 := Phase2(s.target, s.missing, policy);
      Phase2Finished(s.target, s.missing, policy);
      assert r == Completed(r2.target, r2.reported);
      assert forall e :: Present(r.target, e) == Present(s.target, e);
    }
  }

  /** The call fails exactly when missing endpoints are not ignored and some
      path edge lacks an endpoint. */
  lemma FailsExactlyWhenStrict(t: Graph, paths: seq<Path>, opts: Options)
    ensures var r := Materialize(t, paths, opts);
      r.ElementNotFound? <==> !opts.ignoreMissingVertices && exists e :: EdgeInPaths(paths, e) && !Present(r.target, e)
  {
    var r := Materialize(t, paths, opts);
    var s := Phase1(Scan(t, []), paths);
    Phase1Facts(Scan(t, []), paths);
    if |s.missing| > 0 {
      var policy := CallerPolicy(opts);
      var r2 := Phase2(s.target, s.missing, policy);
      assert r.target == r2.target;
      if !policy.ignoreMissing {
        if exists e :: EdgeInPaths(paths, e) && !Present(r.target, e) {
          var e :| EdgeInPaths(paths, e) && !Present(r.target, e);
          assert e in s.missing && !Present(s.target, e);
        }
      }
    }
  }

  /** A failure names a path edge and its absent endpoints, complains about
      that edge alone when asked to, and keeps all of Phase 1's edges. */
  lemma FailureNamesPathEdge(t: Graph, paths: seq<Path>, opts: Options)
    ensures var r := Materialize(t, paths, opts);
      r.ElementNotFound? ==> EdgeInPaths(paths, r.edge) && !Present(r.target, r.edge) && r.missingIds == MissingEndpoints(r.target, r.edge)
    ensures var r := Materialize(t, paths, opts);
      r.ElementNotFound? ==> r.reported == (if opts.showMissingVertices then [r.edge] else [])
    ensures var r := Materialize(t, paths, opts);
      r.ElementNotFound? ==> Phase1(Scan(t, []), paths).target.edges.Keys <= r.target.edges.Keys
  {
    var r := Materialize(t, paths, opts);
    var s := Phase1(Scan(t, []), paths);
    if |s.missing| > 0 {
      var policy := CallerPolicy(opts);
      var r2 := Phase2(s.target, s.missing, policy);
      if r2.Aborted? {
        Phase1Facts(Scan(t, []), paths);
        Phase2Aborted(s.target, s.missing, policy);
        assert r == ElementNotFound(r2.target, r2.edge, r2.missingIds, r2.reported);
        assert r2.edge in r2.retried;
        PrefixMembers(r2.retried, s.missing);
      }
    }
  }

  /** The raise ends the call: the failing edge is the first missing edge
      lacking an endpoint, every missing edge before it had both, and a
      failure holds exactly Phase 1's edges plus those earlier edges; no
      later missing edge is cloned. */
  lemma {:induction false} FailureStopsRetry(t: Graph, paths: seq<Path>, opts: Options)
    ensures var r := Materialize(t, paths, opts);
      r.ElementNotFound? ==> r.edge in Phase1(Scan(t, []), paths).missing
    ensures var r := Materialize(t, paths, opts);
      var s := Phase1(Scan(t, []), paths);
      r.ElementNotFound? && r.edge in s.missing ==>
        var k := IndexOf(s.missing, r.edge);
        && (forall i :: 0 <= i < k ==> Present(s.target, s.missing[i]))
        && (forall id :: id in r.target.edges <==> id in s.target.edges || exists i :: 0 <= i < k && s.missing[i].id == id)
  {
    var r := Materialize(t, paths, opts);
    if r.ElementNotFound? {
      var s := Phase1(Scan(t, []), paths);
      var r2 := Phase2(s.target, s.missing, CallerPolicy(opts));
      FailureIsAbort(t, paths, opts);
      Phase2StopsAt(s.target, s.missing, CallerPolicy(opts));
    }
  }

  /** A failure is the abort of the retry over Phase 1's missing set. */
  lemma FailureIsAbort(t: Graph, paths: seq<Path>, opts: Options)
    ensures var r := Materialize(t, paths, opts);
      var s := Phase1(Scan(t, []), paths);
      var r2 := Phase2(s.target, s.missing, CallerPolicy(opts));
      r.ElementNotFound? ==> r2.Aborted? && r.target == r2.target && r.edge == r2.edge
  {
    Phase1Facts(Scan(t, []), paths);
  }

  /** Every edge a failure holds is already in the target or is a path edge
      whose endpoints the failure holds. */
  lemma {:induction false} FailureHoldsPathEdges(t: Graph, paths: seq<Path>, opts: Options)
    ensures var r := Materialize(t, paths, opts);
      r.ElementNotFound? ==> forall id :: id in r.target.edges ==> id in t.edges || exists e :: EdgeInPaths(paths, e) && Present(r.target, e) && e.id == id
  {
    var r := Materialize(t, paths, opts);
    var s := Phase1(Scan(t, []), paths);
    Phase1Facts(Scan(t, []), paths);
    if |s.missing| > 0 {
      var policy := CallerPolicy(opts);
      var r2 := Phase2(s.target, s.missing, policy);
      if r2.Aborted? {
        Phase2StopsAt(s.target, s.missing, policy);
        assert r == ElementNotFound(r2.target, r2.edge, r2.missingIds, r2.reported);
        var k := |r2.retried| - 1;
        forall id | id in r.target.edges
          ensures id in t.edges || exists e :: EdgeInPaths(paths, e) && Present(r.target, e) && e.id == id
        {
          if id !in s.target.edges {
            var i :| 0 <= i < k && s.missing[i].id == id;
            assert s.missing[i] in s.missing;
            assert Present(r.target, s.missing[i]);
          } else if id !in t.edges {
            var e :| EdgeInPaths(paths, e) && Present(s.target, e) && e.id == id;
            assert Present(r.target, e);
          }
        }
      }
    }
  }

  /** An aborted retry, read against the missing set: it stopped at position
      `k`, every missing edge before it had its endpoints, and the target
      holds exactly the edges it started with plus those earlier edges. */
  lemma Phase2StopsAt(g: Graph, missing: seq<Edge>, policy: Policy)
    ensures var r := Phase2(g, missing, policy);
      var k := |r.retried| - 1;
      r.Aborted? ==>
        && 0 <= k < |missing| && missing[k] == r.edge && !Present(g, r.edge)
        && IndexOf(missing, r.edge) == k
        && (forall i :: 0 <= i < k ==> Present(g, missing[i]))
        && (forall id :: id in r.target.edges <==> id in g.edges || exists i :: 0 <= i < k && missing[i].id == id)
  {
    var r := Phase2(g, missing, policy);
    if r.Aborted? {
      Phase2Aborted(g, missing, policy);
      AbortedEdgesBefore(g, missing, r);
    }
  }

  /** The edges an aborted retry holds, indexed by the position of the
      failing edge in the missing set. */
  lemma AbortedEdgesBefore(g: Graph, missing: seq<Edge>, r: Retry)
    requires r.Aborted? && 0 < |r.retried| && r.retried <= missing && r.edge == r.retried[|r.retried| - 1]
    requires !Present(g, r.edge)
    requires forall i :: 0 <= i < |r.retried| - 1 ==> Present(g, r.retried[i])
    requires forall id :: id in r.target.edges <==> id in g.edges || exists e :: e in r.retried && Present(g, e) && e.id == id
    ensures var k := |r.retried| - 1;
      && k < |missing| && missing[k] == r.edge
      && (forall i :: 0 <= i < k ==> Present(g, missing[i]))
      && (forall id :: id in r.target.edges <==> id in g.edges || exists i :: 0 <= i < k && missing[i].id == id)
  {
    var k := |r.retried| - 1;
    assert forall i :: 0 <= i <= k ==> missing[i] == r.retried[i];
    forall id | id in r.target.edges && id !in g.edges
      ensures exists i :: 0 <= i < k && missing[i].id == id
    {
      var e :| e in r.retried && Present(g, e) && e.id == id;
      var i :| 0 <= i < |r.retried| && r.retried[i] == e;
      assert i < k;
    }
    forall id | exists i :: 0 <= i < k && missing[i].id == id
      ensures id in r.target.edges
    {
      var i :| 0 <= i < k && missing[i].id == id;
      assert r.retried[i] in r.retried && Present(g, r.retried[i]);
    }
  }

  // ------------------------------------------------------------ the call

  /** The guard fires before anything else: a target that is the source
      itself yields the failure and no graph, whatever the paths and options. */
  lemma SelfReferenceGuard(source: Graph, target: Graph, freshHandle: nat, paths: seq<Path>, opts: Options)
    requires target.handle == source.handle
    ensures Subgraph(source, Some(target), freshHandle, paths, opts) == SelfReference
  {
  }

  /** With no target given, the result is built from an empty graph: it holds
      exactly the vertices of the paths, and each edge it holds, completed or
      not, is an edge of the paths whose two endpoints it holds; a completed
      result holds every such edge. */
  lemma FreshTarget(source: Graph, freshHandle: nat, paths: seq<Path>, opts: Options)
    ensures var r := Subgraph(source, None, freshHandle, paths, opts);
      && !r.SelfReference?
      && r.target.handle == freshHandle && r.target.vertexName == source.vertexName
      && (forall id :: id in r.target.vertices <==> VertexInPaths(paths, id))
      && WellFormed(r.target)
      && (forall id :: id in r.target.edges ==> exists e :: EdgeInPaths(paths, e) && Present(r.target, e) && e.id == id)
      && (r.Completed? ==> forall id :: id in r.target.edges <==> exists e :: EdgeInPaths(paths, e) && Present(r.target, e) && e.id == id)
  {
    var t := Prepare(source, None, freshHandle);
    MaterializeFacts(t, paths, opts);
    FailureHoldsPathEdges(t, paths, opts);
  }

  /** A caller-supplied target keeps its vertex name when it has one and its
      identity in every case. */
  lemma ExistingVertexNameKept(source: Graph, target: Graph, freshHandle: nat, paths: seq<Path>, opts: Options)
    requires target.handle != source.handle && target.vertexName.Some?
    ensures var r := Subgraph(source, Some(target), freshHandle, paths, opts);
      !r.SelfReference? && r.target.handle == target.handle && r.target.vertexName == target.vertexName
  {
  }

  /** Completeness: an edge of the paths whose two endpoints occur as
      vertices anywhere in the input (or were already in the target) is in
      the result of a completed call, with its own label and endpoints when
      Ids are unique; and it is never the edge a failure names. */
  lemma Completeness(source: Graph, target: Option<Graph>, freshHandle: nat, paths: seq<Path>, opts: Options, e: Edge)
    requires EdgeInPaths(paths, e)
    requires e.outId in Prepare(source, target, freshHandle).vertices || VertexInPaths(paths, e.outId)
    requires e.inId in Prepare(source, target, freshHandle).vertices || VertexInPaths(paths, e.inId)
    ensures var r := Subgraph(source, target, freshHandle, paths, opts);
      r.Completed? ==> e.id in r.target.edges
    ensures var r := Subgraph(source, target, freshHandle, paths, opts);
      r.Completed? && UniqueEdgeIds(paths) ==> Stored(r.target, e)
    ensures var r := Subgraph(source, target, freshHandle, paths, opts);
      r.ElementNotFound? ==> r.edge != e
  {
    var r := Subgraph(source, target, freshHandle, paths, opts);
    if !r.SelfReference? {
      var t := Prepare(source, target, freshHandle);
      MaterializeFacts(t, paths, opts);
      assert Present(r.target, e);
    }
  }

  /** Under `ignore_missing_vertices` the call never raises
      `ElementNotFound`, whether or not missing vertices are shown. */
  lemma IgnorePolicyNeverFails(source: Graph, target: Option<Graph>, freshHandle: nat, paths: seq<Path>, opts: Options)
    requires opts.ignoreMissingVertices
    ensures !Subgraph(source, target, freshHandle, paths, opts).ElementNotFound?
  {
    if !(target.Some? && target.value.handle == source.handle) {
      MaterializeFacts(Prepare(source, target, freshHandle), paths, opts);
    }
  }

  /** Unless missing vertices are ignored, the call raises `ElementNotFound`
      exactly when some edge of the paths has an endpoint that is not a vertex
      of the target; the failure names such an edge and all its absent
      endpoint Ids, complains about it alone under `show_missing_vertices`,
      and everything Phase 1 cloned stays in the target. */
  lemma StrictPolicyFailsIff(source: Graph, target: Option<Graph>, freshHandle: nat, paths: seq<Path>, opts: Options)
    requires !opts.ignoreMissingVertices
    requires !(target.Some? && target.value.handle == source.handle)
    ensures var r := Subgraph(source, target, freshHandle, paths, opts);
      r.ElementNotFound? <==> exists e :: EdgeInPaths(paths, e) && !Present(r.target, e)
    ensures var r := Subgraph(source, target, freshHandle, paths, opts);
      r.ElementNotFound? ==>
        && EdgeInPaths(paths, r.edge) && r.missingIds != {}
        && (forall id :: id in r.missingIds <==> id !in r.target.vertices && (id == r.edge.outId || id == r.edge.inId))
        && r.reported == (if opts.showMissingVertices then [r.edge] else [])
        && Phase1(Scan(Prepare(source, target, freshHandle), []), paths).target.edges.Keys <= r.target.edges.Keys
  {
    MaterializeFacts(Prepare(source, target, freshHandle), paths, opts);
  }

  /** Every completed call leaves a well-formed target well-formed. */
  lemma TargetStaysWellFormed(source: Graph, target: Graph, freshHandle: nat, paths: seq<Path>, opts: Options)
    requires WellFormed(target)
    ensures var r := Subgraph(source, Some(target), freshHandle, paths, opts);
      !r.SelfReference? ==> WellFormed(r.target)
  {
  }

  /** `create_vertices` is never forwarded to `clone_into`, so it has no
      effect on the outcome. */
  lemma CreateVerticesHasNoEffect(source: Graph, target: Option<Graph>, freshHandle: nat, paths: seq<Path>, opts: Options)
    ensures Subgraph(source, target, freshHandle, paths, opts)
         == Subgraph(source, target, freshHandle, paths, opts.(createVertices := !opts.createVertices))
  {
  }

  /** Running both phases again over the result of a completed run
      succeeds and adds no Id. */
  lemma MaterializeIdempotent(t: Graph, paths: seq<Path>, opts: Options)
    requires Materialize(t, paths, opts).Completed?
    ensures var g := Materialize(t, paths, opts).target;
      var r := Materialize(g, paths, opts);
      r.Completed? && r.target.vertices == g.vertices && r.target.edges.Keys == g.edges.Keys
  {
    RerunCompletes(t, paths, opts);
    RerunAddsNoEdge(t, paths, opts);
  }

  /** After a completed run every path edge whose endpoints are present is
      placed, and unless missing vertices are ignored every path edge has
      them. */
  lemma CompletedRunSettles(t: Graph, paths: seq<Path>, opts: Options)
    requires Materialize(t, paths, opts).Completed?
    ensures var g := Materialize(t, paths, opts).target;
      && (!opts.ignoreMissingVertices ==> forall e :: EdgeInPaths(paths, e) ==> Present(g, e))
      && (forall e :: EdgeInPaths(paths, e) && Present(g, e) ==> e.id in g.edges)
  {
    MaterializeFacts(t, paths, opts);
  }

  /** A completed run adds only the Ids of path edges whose endpoints are
      present. */
  lemma CompletedRunKeys(g: Graph, paths: seq<Path>, opts: Options)
    requires Materialize(g, paths, opts).Completed?
    ensures var r := Materialize(g, paths, opts);
      forall id :: id in r.target.edges ==> id in g.edges || exists e :: EdgeInPaths(paths, e) && Present(r.target, e) && e.id == id
  {
    MaterializeFacts(g, paths, opts);
  }

  lemma RerunCompletes(t: Graph, paths: seq<Path>, opts: Options)
    requires Materialize(t, paths, opts).Completed?
    ensures Materialize(Materialize(t, paths, opts).target, paths, opts).Completed?
  {
    var g := Materialize(t, paths, opts).target;
    CompletedRunSettles(t, paths, opts);
    MaterializeFacts(g, paths, opts);
  }

  lemma RerunAddsNoEdge(t: Graph, paths: seq<Path>, opts: Options)
    requires Materialize(t, paths, opts).Completed?
    ensures var g := Materialize(t, paths, opts).target;
      forall id :: id in Materialize(g, paths, opts).target.edges ==> id in g.edges
  {
    var g := Materialize(t, paths, opts).target;
    var r := Materialize(g, paths, opts).target;
    CompletedRunSettles(t, paths, opts);
    RerunCompletes(t, paths, opts);
    CompletedRunKeys(g, paths, opts);
    assert r.vertices == g.vertices;
    OnlyPlacedKeysAdded(g, r, paths);
  }

  /** If every new key of `r` belongs to a path edge present in `r`, and `g`
      already placed every path edge present in it, then `r` adds no key. */
  lemma OnlyPlacedKeysAdded(g: Graph, r: Graph, paths: seq<Path>)
    requires r.vertices == g.vertices
    requires forall e :: EdgeInPaths(paths, e) && Present(g, e) ==> e.id in g.edges
    requires forall id :: id in r.edges ==> id in g.edges || exists e :: EdgeInPaths(paths, e) && Present(r, e) && e.id == id
    ensures forall id :: id in r.edges ==> id in g.edges
  {
  }

  /** Idempotence: materialising the same paths again into the result of a
      completed call succeeds and adds no vertex or edge Id. */
  lemma Idempotent(source: Graph, target: Option<Graph>, freshHandle: nat, freshHandle2: nat, paths: seq<Path>, opts: Options)
    requires (if target.Some? then target.value.handle else freshHandle) != source.handle
    requires Subgraph(source, target, freshHandle, paths, opts).Completed?
    ensures var g := Subgraph(source, target, freshHandle, paths, opts).target;
      var r := Subgraph(source, Some(g), freshHandle2, paths, opts);
      r.Completed? && r.target.vertices == g.vertices && r.target.edges.Keys == g.edges.Keys
  {
    var t := Prepare(source, target, freshHandle);
    assert Subgraph(source, target, freshHandle, paths, opts) == Materialize(t, paths, opts);
    var g := Materialize(t, paths, opts).target;
    assert Prepare(source, Some(g), freshHandle2) == g;
    MaterializeIdempotent(t, paths, opts);
  }

  // ------------------------------------------------------------ scenarios

  const V1 := Vertex(1, map[])
  const V2 := Vertex(2, map[])
  const E1 := Edge(10, "knows", 1, 2)
  /** An edge to vertex 4, which no path visits. */
  const E2 := Edge(11, "knows", 2, 4)

  /** A source graph with no vertex name; fresh targets get handle 7. */
  const Source := Graph(0, None, {}, map[])
  const Fresh: nat := 7
  const Path1: Path := [VertexElem(V1), EdgeElem(E1), VertexElem(V2)]
  const Path2: Path := [EdgeElem(E2)]

  lemma PathParts()
    ensures VerticesOf(Path1) == [V1, V2] && EdgesOf(Path1) == [E1]
    ensures VerticesOf(Path2) == [] && EdgesOf(Path2) == [E2]
  {
    var tail1: Path := [EdgeElem(E1), VertexElem(V2)];
    var tail2: Path := [VertexElem(V2)];
    assert Path1[1..] == tail1 && tail1[1..] == tail2 && tail2[1..] == [];
    assert VerticesOf(tail2) == [V2] && EdgesOf(tail2) == [];
    assert VerticesOf(tail1) == [V2] && EdgesOf(tail1) == [E1];
    assert Path2[1..] == [];
  }

  /** Phase 1 on the first scenario path alone: `v1`, `v2` and `e1` are
      placed and nothing is deferred. */
  lemma FirstPathScan()
    ensures ScanPath(Scan(EmptyGraph(Fresh), []), Path1)
         == Scan(Graph(Fresh, None, {1, 2}, map[10 := Rec(E1)]), [])
  {
    var t := EmptyGraph(Fresh);
    PathParts();
    var g1 := CloneVertices(t, [V1, V2]);
    assert g1 == Graph(Fresh, None, {1, 2}, map[]);
    assert ScanPath(Scan(t, []), Path1) == TryEdges(g1, [E1], []);
  }

  /** Phase 1 on the second scenario path after the first: `e2` is deferred. */
  lemma SecondPathScan()
    ensures ScanPath(Scan(Graph(Fresh, None, {1, 2}, map[10 := Rec(E1)]), []), Path2)
         == Scan(Graph(Fresh, None, {1, 2}, map[10 := Rec(E1)]), [E2])
  {
    var g := Graph(Fresh, None, {1, 2}, map[10 := Rec(E1)]);
    PathParts();
    assert CloneVertices(g, []) == g;
    assert ScanPath(Scan(g, []), Path2) == TryEdges(g, [E2], []);
  }

  /** The state both scenarios below reach after Phase 1. */
  lemma ScenarioPhase1()
    ensures Phase1(Scan(EmptyGraph(Fresh), []), [Path1, Path2])
         == Scan(Graph(Fresh, None, {1, 2}, map[10 := Rec(E1)]), [E2])
  {
    var t := EmptyGraph(Fresh);
    var s1 := ScanPath(Scan(t, []), Path1);
    FirstPathScan();
    SecondPathScan();
    var s2 := ScanPath(s1, Path2);
    assert [Path1, Path2][1..] == [Path2];
    assert Phase1(Scan(t, []), [Path1, Path2]) == Phase1(s1, [Path2]);
    assert Phase1(s1, [Path2]) == Phase1(s2, []);
  }

  /** The smallest case: one path `v1 -e1-> v2` into a fresh target yields
      exactly those two vertices and that edge, and Phase 2 never runs. */
  lemma MinimalCase(opts: Options)
    ensures Subgraph(Source, None, Fresh, [Path1], opts)
         == Completed(Graph(Fresh, None, {1, 2}, map[10 := Rec(E1)]), [])
  {
    var t := EmptyGraph(Fresh);
    assert Prepare(Source, None, Fresh) == t;
    FirstPathScan();
    var s1 := ScanPath(Scan(t, []), Path1);
    assert Phase1(Scan(t, []), [Path1]) == Phase1(s1, []);
  }

  /** Missing vertices not ignored: `e2` points at vertex 4, which no path
      visits. The call raises `ElementNotFound` naming `e2` and vertex 4,
      having complained about `e2` exactly when missing vertices are shown,
      and `v1`, `v2` and `e1` remain in the target. */
  lemma StrictScenario(createVertices: bool, show: bool)
    ensures Subgraph(Source, None, Fresh, [Path1, Path2], Options(createVertices, false, show))
         == ElementNotFound(Graph(Fresh, None, {1, 2}, map[10 := Rec(E1)]), E2, {4}, if show then [E2] else [])
  {
    var opts := Options(createVertices, false, show);
    var g := Graph(Fresh, None, {1, 2}, map[10 := Rec(E1)]);
    var reported: seq<Edge> := if show then [E2] else [];
    assert MissingEndpoints(g, E2) == {4};
    assert CloneEdge(g, E2, CallerPolicy(opts)) == Unplaced({4}, show, true);
    assert Phase2(g, [E2], CallerPolicy(opts)) == Aborted(g, [E2], E2, {4}, reported);
    ScenarioPhase1();
    assert Materialize(EmptyGraph(Fresh), [Path1, Path2], opts) == ElementNotFound(g, E2, {4}, reported);
    assert Prepare(Source, None, Fresh) == EmptyGraph(Fresh);
  }

  /** Missing vertices ignored: the same input completes without `e2`, which
      is complained about exactly when missing vertices are shown. */
  lemma IgnoreScenario(createVertices: bool, show: bool)
    ensures Subgraph(Source, None, Fresh, [Path1, Path2], Options(createVertices, true, show))
         == Completed(Graph(Fresh, None, {1, 2}, map[10 := Rec(E1)]), if show then [E2] else [])
  {
    var opts := Options(createVertices, true, show);
    var g := Graph(Fresh, None, {1, 2}, map[10 := Rec(E1)]);
    var reported: seq<Edge> := if show then [E2] else [];
    assert MissingEndpoints(g, E2) == {4};
    assert CloneEdge(g, E2, CallerPolicy(opts)) == Unplaced({4}, show, false);
    assert Phase2(g, [E2][1..], CallerPolicy(opts)) == Finished(g, [], []);
    assert Phase2(g, [E2], CallerPolicy(opts)) == Finished(g, [E2], reported);
    ScenarioPhase1();
    assert Materialize(EmptyGraph(Fresh), [Path1, Path2], opts) == Completed(g, reported);
    assert Prepare(Source, None, Fresh) == EmptyGraph(Fresh);
  }
}
